=== FILE: README.md ===
# Deck pricing engine: a Dafny model

This project models the pricing core of a deck and patio quoting web site in
Dafny 4.11, with proofs about that model.

- **Calculators.** Six line-item calculators price a deck from its
  dimensions and a rate table: deck surface, railing, stairs, fascia,
  demolition and sales tax.
- **Estimate handler.** It validates the posted form and applies a
  finish-level preset. It clears the save state of the estimate it is
  pricing and runs the calculators in order, stopping at the first error.
  Finally it fills in subtotal, tax and total. Only an estimate priced
  without error is written back to the session. A rejected form or a
  calculator error leaves the earlier estimate there, including its save
  date. The handler also guards the "save" and "accept" actions.
- **Helpers around the core:**
  - thousands separators for money amounts;
  - material display names;
  - generation and parsing of city landing-page slugs;
  - the home-page dispatch to city pages;
  - the placeholder password check, the signup field check and the login
    page's return-URL handling.

Money is modelled as `real`. A calculator's `(float64, error)` result
becomes `Basics.Priced(cost, err)`; on every error path the cost is 0, as in
the source. Strings are `seq<char>`. Go's `strings` functions are written
out in module `Text`, with their own lemmas: `Split`/`Join` with a
one-character separator, `Trim`, `TrimSpace`, `HasPrefix`, and a
`ToLower` that lowers every letter whose lower case is ASCII.

## Modules

| file | module | source |
|---|---|---|
| basics.dfy | `Basics` | shared result type, `math.Ceil` |
| text.dfy | `Text` | the `strings` operations the core calls |
| costs.dfy | `RateTable` | costs.go |
| deck.dfy, rails.dfy, stairs.dfy, fascia.dfy, demo.dfy, tax.dfy | `Deck`, `Rails`, `Stairs`, `Fascia`, `Demo`, `Tax` | the calculator files of the same names |
| estimate.dfy | `Estimate` | the calculation path of `estimateHandler` in estimate.go |
| ui_format.dfy | `UiFormat` | ui_format.go |
| cities_seo.dfy | `CitiesSeo` | citiesSEO.go |
| homeowner.dfy | `Homeowner` | the prefix dispatch of homeowner.go |
| login.dfy | `Login` | login.go |

### The estimate pipeline

In estimate.go the handler calls methods on the estimate, such as
`estimate.CalculateDeckCost(costs)` and `estimate.CalcStairCost(costs)`.
Their bodies are not part of this model. `Estimate.Price` therefore takes
the eight steps as a `Steps` record of functions
`(DeckEstimate, Costs) -> DeckEstimate`. Its contract holds for every choice
of steps:

- the first step that sets `error` ends pricing;
- otherwise the totals are computed from the line items.

`Estimate.FreeFunctionSteps` builds the deck, stair, rail, demolition and
fascia steps from the free calculator functions. It wires them as the
earlier handler revision in deck_estimate.go:280-322 does:

- the stair rate is the deck material's rate, or 0 for an unknown material;
- rail footage and fascia footage are `2 * length + width`.

The stair-rail, stair-fascia and toe-kick calculators have no visible body,
so they remain parameters.

### Where the code's comments and data differ from what the code does

The code is followed in each case.

- **Toe-kick cost.** The handler computes a stair toe-kick cost
  (estimate.go:413), but the subtotal at estimate.go:419 adds only the seven
  other line items and leaves it out. `Estimate.ToeKickNotBilled` states
  this: changing the toe-kick cost never changes the total.
- **Tax rate.** The comment at tax.go:3-4 says 10%, but the code uses 8.7%.
- **Demolition rate.** The rate table carries a `demoCost`, but demo.go uses
  a fixed 5 per square foot.
- **Hyphenated city slugs.** The comment at citiesSEO.go:45 says the slug
  "la-center" "would also be fine". `CitiesSeo.HyphenatedCityMisparsed`
  shows that it would not: the slug parses as service "deck-builders-la" and
  city "center".

## Model

| member | source | states |
|---|---|---|
| RateTable.Rate | rails.go:8-9 | a key missing from a rate map reads as 0, a present key as its rate |
| RateTable.RateNonNegative | rails.go:8-9 | reading a map of non-negative rates never gives a negative rate, whether the key is present or not |
| Deck.CalculateDeckCost | deck.go:5-21 | an unknown material fails first, whatever the height; a known material at 20 ft or more fails; otherwise cost = length * width * rate * multiplier, where the multiplier is 1 up to 4 ft and 1 + (h - 4) / 100 above |
| Deck.DeckErrorIff | deck.go:7-14 | the deck calculation fails exactly when the material is unknown or the height is 20 ft or more, and a failure costs 0 |
| Deck.DeckCostAtLeastBase | deck.go:11-20 | with non-negative dimensions and rate, below 20 ft, the cost is at least length * width * rate and non-negative |
| Deck.DeckCostMonotoneInHeight | deck.go:13-20 | a higher deck below 20 ft never costs less |
| Deck.DeckHeightBoundary | deck.go:13-14 | 20 ft is refused with the height message; 19.999 ft is priced |
| Deck.DeckScenario | deck.go:5-20 | a 20 x 12 ft cedar deck, 3 ft high, at rate 40 costs 9600 |
| Rails.CalculateRailCost | rails.go:5-16 | the calculation fails exactly when infill is chosen without a rail material; otherwise cost = (2 * length + width) * (material rate + infill rate) |
| Rails.RailUnknownKeysCostNothing | rails.go:8-9 | rail and infill keys unknown to both tables are priced at 0 and are not rejected |
| Rails.RailNothingChosen | rails.go:8-15 | no rail material and no infill gives cost 0 and no error |
| Rails.RailCostNonNegative | rails.go:7-15 | non-negative dimensions and rates give a non-negative rail cost |
| Stairs.StepCount | stairs.go:12 | the step count is the least integer not below height * 1.6 |
| Stairs.CalculateStairCost | stairs.go:11-22 | a width in (0, 3) fails with cost 0; width 0 gives cost 0 and no error; any other width gives rate * steps * width * 1.5 |
| Stairs.StairErrorIff | stairs.go:13-15 | the only stair error is a width strictly between 0 and 3 ft |
| Stairs.StairWidthBoundary | stairs.go:13-15 | 3 ft is buildable; 2.999 ft is refused |
| Stairs.StairCostMonotoneInWidth | stairs.go:19-21 | for buildable widths and non-negative height and rate, the stair cost is non-negative and grows with the width |
| Stairs.StairScenario | stairs.go:12-21 | a 3 ft rise takes 5 steps; 4 ft wide stairs at rate 40 cost 1200 |
| Fascia.CalculateFasciaCost | fascia.go:5-8 | fascia cost is the three-side rail footage times the fascia rate |
| Fascia.FasciaCostSign | fascia.go:6-7 | a zero fascia rate costs nothing; non-negative inputs cost a non-negative amount |
| Fascia.FasciaMatchesRailFootage | fascia.go:6 | when the rail rate equals the fascia rate and there is no infill, rails and fascia cost the same |
| Demo.CalculateDemoCost | demo.go:5-8 | demolition cost is at least the area for a non-negative area, and is 0 exactly when the area is 0 |
| Demo.DemoLinear | demo.go:6-7 | demolition cost is additive and monotone in the area, at a fixed 5 per square foot whatever the rate table says |
| Tax.CalculateSalesTax | tax.go:6-9 | subtotal + tax = 1.087 * subtotal; for a non-negative subtotal, 0 <= tax <= subtotal; the tax is 0 exactly when the subtotal is 0 |
| Tax.TaxScenario | tax.go:6-9 | a 9600 subtotal carries 835.20 tax, 10435.20 in all |
| Estimate.ZeroIfInvalid | estimate.go:282-291 | an unparsable or negative stair width or stair-rail count becomes 0; other values are kept |
| Estimate.ReadForm | estimate.go:263-306 | fails exactly when the length or width is not positive or the height is negative, with length checked first, then width, then height; otherwise stores the description, the dimensions, area = length * width, the defaulted stair values, the selections, and a check box as ticked exactly when its value is "on", and changes no other field |
| Estimate.Preset | estimate.go:316-369 | exactly the levels "1" to "5" are presets; each sets a deck material, a rail material with infill, two stair rails and a stair width of at least 3 ft; fascia comes only with levels 4 and 5 |
| Estimate.ApplyFinish | estimate.go:312-385 | only the eight selections change, and an empty finish changes nothing; otherwise each selection is the known level's preset value (the form's own value for an unknown level), except that a deck under 2.5 ft gets no rail material, infill or stair rails, and without "hasStairs" = "on" the stair width and stair-rail count are 0 and stair fascia and toe-kick are off |
| Estimate.PresetsPriceCleanly | estimate.go:316-384 | after a known finish level, neither the stair calculator nor the rail calculator can fail |
| Estimate.ResetSaveState | estimate.go:387-392 | save, expiry and accept dates become zero, the estimate number 0 and the error empty, and nothing else changes |
| Estimate.Prepare | estimate.go:263-392 | form rejection is passed through unchanged; a prepared estimate has no save state, positive length and width, non-negative height, stair width and stair-rail count, and area = length * width; it is exactly the read form with the finish level applied and the save state reset |
| Estimate.WithTotals | estimate.go:419-421 | subtotal = the sum of the seven billed line items; total = subtotal + tax = 1.087 * subtotal; nothing else changes |
| Estimate.ToeKickNotBilled | estimate.go:413-421 | the stair toe-kick cost never affects the total |
| Estimate.Price | estimate.go:394-421 | for any calculators: an error from deck, stair or rail, in that order, is returned as it stands; otherwise the remaining steps run and the totals are filled in from their line items, with sales tax = `CalculateSalesTax(subtotal)` and total = subtotal + tax |
| Estimate.Handle | estimate.go:230-421 | a GET shows the stored estimate; a save goes ahead only with a positive total and a customer first name, and otherwise shows the fixed message; an accept goes ahead only after a save and stamps the accept time; every other POST is validated, prepared and priced; the session keeps its earlier estimate unless the pricing ends without error, in which case it holds the priced estimate |
| Estimate.StaleSaveAcceptedAfterRejectedRecalculation | estimate.go:255-424 | after a saved estimate, a recalculation with an unknown material shows the material error but leaves the saved estimate in the session, and a following "accept" stamps that stale estimate |
| Estimate.RejectionHasNoCosts | estimate.go:263-280 | a rejected form renders a blank estimate carrying the message of the first failing check (length, then width, then height), so every cost is 0 |
| Estimate.FirstErrorWins | estimate.go:394-409 | with the free calculators, the error shown is the material error, else the height error, else the stair-width error, else the infill error, whatever the unseen calculators do |
| Estimate.DeckStep | deck_estimate.go:285-291 | only the error and the deck line can change; an unknown material or a height of 20 ft or more sets the deck calculator's message; otherwise the deck line is length * width * rate * height multiplier |
| Estimate.StairStep | deck_estimate.go:280-299 | only the error and the stair line can change; a stair width strictly between 0 and 3 ft sets the width message; otherwise the stair line is the stair calculator's cost at the deck material's rate from the deck-rate table, or at rate 0 for an unknown material |
| Estimate.RailStep | deck_estimate.go:304-311 | only the error, rail line and rail footage can change; infill without a rail material sets the infill message; otherwise the rail line is the rail calculator's cost and the footage is 2 * length + width |
| Estimate.DemoStep | deck_estimate.go:313-316 | only the demolition line changes: 5 per square foot of length * width when demolition is chosen, else 0 |
| Estimate.FasciaStep | deck_estimate.go:318-322 | only the fascia line and fascia footage can change; when fascia is chosen the line is 2 * length + width times the fascia rate and the footage is 2 * length + width; otherwise the line is 0 and the footage is left as it was |
| Estimate.FreeFunctionSteps | deck_estimate.go:280-322 | the deck, stair, rail, demolition and fascia slots hold those steps, and the stair-rail, stair-fascia and toe-kick slots hold the given calculators |
| Estimate.Remaining | estimate.go:411-415 | stair rail, stair fascia, toe-kick, demolition and fascia run in that order, with no error check between them |
| Estimate.FreePipelinePrices | estimate.go:394-421 | with the free calculators and a configuration none of them rejects, each line item is its calculator's cost, demolition and fascia are 0 unless chosen, and the total is 1.087 times the billed lines |
| Estimate.CedarFormPrepared | estimate.go:263-306 | the 20 x 12 x 3 ft cedar form is accepted with area 240 and nothing else chosen |
| Estimate.CedarDeckScenario | estimate.go:263-421 | posting that form against a fresh session gives deck cost 9600, subtotal 9600, tax 835.20 and total 10435.20 |
| UiFormat.GroupDigits | ui_format.go:15-21 | the left-to-right loop produces the right-to-left grouping into threes |
| UiFormat.LoopIsThousands | ui_format.go:16-21 | adding a comma before index i exactly when i > 0 and (len - i) mod 3 = 0 groups the string in threes from the right |
| UiFormat.ThousandsKeepsDigits | ui_format.go:16-21 | deleting the commas from the grouped digits gives the digits back in order |
| UiFormat.ThousandsGroups | ui_format.go:16-21 | for a non-empty comma-free string, the first group has one to three characters, every later group exactly three, there are ceil(len / 3) groups, and no comma comes first |
| UiFormat.FormatCost | ui_format.go:10-23 | the result is "$", the grouped integer part, ".", and the decimal part unchanged |
| UiFormat.FixedPointParts | ui_format.go:11-14 | a fixed-point text "int.dec" splits on '.' into exactly its integer and decimal parts |
| UiFormat.FormatCostShape | ui_format.go:10-23 | the output starts with "$", ends with "." and the decimal part, and holds the integer digits in order once the commas are removed |
| UiFormat.ThousandsExample | ui_format.go:9-22 | 13680 is shown as 13,680 and 680 as 680 |
| UiFormat.NegativeAmountGetsStrayComma | ui_format.go:11-22 | as written, an amount of -123 is grouped as "-,123", with a comma right after the sign |
| UiFormat.FormatCostSignedNoStrayComma | ui_format.go:10-23 | corrected formatting: every character is kept in order once the commas are removed, no comma follows the sign, and the result equals the original's on unsigned amounts |
| UiFormat.MaterialDisplayName | ui_format.go:27-39 | exactly the five known material keys have a non-empty display name |
| UiFormat.MaterialNamesDistinct | ui_format.go:28-39 | different known materials have different display names |
| CitiesSeo.Row | citiesSEO.go:53-56 | one service yields one slug per city, in city order |
| CitiesSeo.GenerateSlugs | citiesSEO.go:51-59 | the nested start-up loop produces every service's city slugs, service by service |
| CitiesSeo.SlugCount | citiesSEO.go:51-58 | the number of generated slugs is the number of services times the number of cities |
| CitiesSeo.SlugAt | citiesSEO.go:52-57 | the slug for service i and city j is at position i * (number of cities) + j, in service-major order |
| CitiesSeo.AllCityPageSlugsCount | citiesSEO.go:58 | the site's 8 services and 4 cities give 32 slugs |
| CitiesSeo.ParseCitySlug | citiesSEO.go:136-151 | fewer than four '-'-separated parts, after trimming '/', gives three empty strings; otherwise service + "-" + city + "-" + state rebuilds the trimmed path, with no '-' in the city or state and at least one '-' in the service |
| CitiesSeo.ParseRebuilds | citiesSEO.go:144-149 | the service joined from all but the last two parts, then the city and the state, rejoin to the whole path |
| CitiesSeo.ParseRoundTrip | citiesSEO.go:136-151 | "/" + service + "-" + city + "-" + state parses back into its three parts when the service contains a '-' and the city and state contain none |
| CitiesSeo.CitySlugPieces | citiesSEO.go:54 | the slug is the service, '-', the city slug, '-', the state, each piece in its place and nothing else |
| CitiesSeo.ParseCitySlugOfCitySlug | citiesSEO.go:54 | the same round trip, stated for a slug built by the generator's format |
| CitiesSeo.GeneratedSlugsParse | citiesSEO.go:93-97 | every generated page parses back into its own service, city and state, with a non-empty city, so it is never answered "not found" |
| CitiesSeo.HyphenatedCitySlugMisparsed | citiesSEO.go:136-151 | a city slug "first-rest" does not round-trip: the page parses as service "service-first", city "rest" |
| CitiesSeo.HyphenatedCityMisparsed | citiesSEO.go:45 | with the slug "la-center" that the comment proposes, the deck-builders page of La Center would be read as service "deck-builders-la" in city "center" |
| CitiesSeo.PrettifyServiceAsWritten | citiesSEO.go:153-166 | exactly the eight served service slugs are in the display-name table |
| CitiesSeo.TimbertechShownAsTrex | citiesSEO.go:157-158 | as written, the TimberTech slug is displayed as "Trex Deck Installers", the same name as the Trex slug |
| CitiesSeo.PrettifyServiceInverse | citiesSEO.go:153-166 | corrected table: each served service's display name maps back to that service, so the table is one-to-one |
| CitiesSeo.PrettifyServiceDistinct | citiesSEO.go:153-166 | corrected table: it names exactly the served services, gives different services different names, and agrees with the original except for TimberTech |
| Homeowner.Route | homeowner.go:46-58 | a path goes to the city page exactly when its lower-cased form starts with one of the eight service prefixes |
| Homeowner.PrefixChain | homeowner.go:47-54 | the chain of eight prefix tests is a search of the prefix table |
| Homeowner.RouteIgnoresCase | homeowner.go:46 | routing a path and routing its lower-cased form give the same page |
| Homeowner.DottedCapitalIRoutesToCity | homeowner.go:46-47 | lower-casing is Unicode-wide: "/deck-buİlders-woodland-wa", with a dotted capital I, still reaches the city page |
| Homeowner.PrefixMatchesService | homeowner.go:47-54 | the i-th prefix begins the page path of the i-th served service |
| Homeowner.LowerPathRoute | homeowner.go:46-57 | a path that starts with a listed prefix and holds no letter lowering to ASCII goes to the city page |
| Homeowner.GeneratedSlugsRouteToCity | homeowner.go:46-57 | every generated city page path is sent to the city handler |
| Login.AuthN | login.go:356-370 | succeeds exactly when the email is non-empty and the password equals it; an empty email is refused with "missing user name" before the password is looked at |
| Login.Utf8Len | login.go:193 | Go's `len` counts UTF-8 bytes: at least one and at most four per character |
| Login.CheckSignup | login.go:187-193 | accepted exactly when the trimmed name and trimmed email are non-empty, the passwords match, and the password is at least 8 bytes long (the separate empty-password test adds nothing); on acceptance the trimmed values are kept |
| Login.SignupRefusesBlankOrMismatch | login.go:187-193 | a name or email made only of white space, or passwords that differ, are always refused |
| Login.SignupCountsBytes | login.go:187-193 | the length rule counts bytes: three euro signs are 3 characters but 9 bytes, and with a name and email that neither start nor end with white space they make a valid signup, accepted unchanged |
| Login.SignupPost | login.go:183-227 | it signs the user in and goes to "/" exactly when the fields pass and the user is created; otherwise it goes back to "/signup" with only the title and message changed, the message being the validation message for a rejected form and the database-failure message for a failed creation; on success the message is the welcome text and only the title, id, auth type, role, email, name, sign-in flag and message change |
| Login.OrHome | login.go:345-347 | an empty return URL becomes "/"; a non-empty one is kept; the result is never empty |
| Login.AfterPost | login.go:307-315 | a GET leaves the session alone; a POST failing `authN` only sets the failure message; a passing POST stores the email, signs in and sets "Welcome " + email |
| Login.LoginHandler | login.go:307-348 | "signout" always signs out; otherwise the session is redirected exactly when it was already signed in or the POST's credentials pass `authN`, carrying the session after the POST, to the session's stored return URL, or to "/" if it is empty; everyone else sees the form titled "Login" storing the query's return URL, or "/" when it is empty; a failed POST keeps the sign-in status and email and sets the failure message |
| Login.LoginWithCorrectPassword | login.go:307-340 | a POST whose password equals the non-empty email signs the session in and redirects |
| Login.ReturnUrlRoundTrip | login.go:333-348 | a visit with return URL u stores u, and the next correct POST from that session is redirected to u |

## Left out

- **I/O.** The following are left out: HTTP, template rendering, the terms
  text, the session store, database access (`saveEstimate`, `createUser`,
  next-ID queries), the contact form, e-mail, captcha and logging.
  - The session's estimate and customer are parameters of
    `Estimate.Handle`.
  - The clock is an integer parameter.
  - `createUser`'s outcome is a parameter of `Login.SignupPost`.
  - A session that cannot be read (estimate.go:224-228) is not modelled.
- **Unseen calculator bodies.** The estimate methods called at
  estimate.go:394-415 have no visible bodies, and neither does
  `CalculateStairRailCost`. They are function parameters of
  `Estimate.Price`. The stair-rail, stair-fascia and toe-kick steps stay
  parameters even in `Estimate.FreeFunctionSteps`.
- **Earlier handler revisions.** main.go and deck_estimate.go are not part
  of this model. Only the wiring of the free functions is taken from
  deck_estimate.go.
- **Floating point.** Costs are exact reals. IEEE rounding is not modelled,
  and neither are `strconv.ParseFloat`, `strconv.FormatFloat` or `%.1f`.
  - The form's numbers arrive already parsed, with `None` for a parse
    error. Non-finite values are outside the model. `strconv.ParseFloat`
    accepts "NaN" and "Inf" without error, and every comparison with NaN
    is false. So a NaN length, width or height passes the checks at
    estimate.go:265-280, and a NaN height also escapes the 20 ft refusal
    at deck.go:13. An "Inf" length or width is accepted as positive.
  - `UiFormat.FormatCost` takes the text `FormatFloat` would produce.
    For NaN or an infinity that text has no '.', and `formatCost` then
    panics on `parts[1]` (ui_format.go:14).
- **`prettifyService` fallback.** The `strings.Title` fallback for unknown
  slugs (citiesSEO.go:168) is Unicode title-casing; such slugs map to
  `None`.
- **City page rendering.** The rendering in `cityHandler` is left out:
  title-casing, `ToUpper`, the JSON-LD schema and the sitemap output.
- **YAML loading.** `loadCosts` is left out; the `Costs` record is an input.
- **OAuth and credentials.** The OAuth2 flow, bcrypt hashing and
  `randToken` are left out, being crypto and foreign calls.
- **Sign-out.** Deleting the session on sign-out is a session-store
  operation, so `Login.LoginHandler` reports `SignedOut` without a session
  value.
- Text.ToLower: lowers the ASCII capitals and the two non-ASCII letters
  whose lower case is ASCII (the Kelvin sign U+212A and the dotted capital I
  U+0130); every other character is kept, whereas Go's `strings.ToLower`
  lowers other non-ASCII letters to non-ASCII letters. Every listed prefix
  is ASCII, so such letters fail the prefix tests either way and
  `Homeowner.Route` picks the same page as `ownerHandler`. Paths are
  sequences of characters, so invalid UTF-8 is not represented.
- UiFormat.FormatCost: takes the fixed-point text as its input rather than
  the float, because `FormatFloat` is not modelled. Its `requires '.' in
  fixed` holds for every finite cost. It excludes the texts "NaN", "+Inf"
  and "-Inf", on which the source panics at ui_format.go:14, so that panic
  is not modelled. The loop indexes bytes
  and the model indexes characters; for the ASCII digits and sign that
  `FormatFloat` produces, the two agree.

## Findings

| source | as written | input that shows it | evidently intended | confidence | as-written member | corrected member |
|---|---|---|---|---|---|---|
| ui_format.go:16-21 | the grouping loop treats a leading '-' as a digit | cost -123 gives "$-,123.00" | "$-123.00": the sign is written before the grouped magnitude | not executed; high: the loop has no sign case | UiFormat.NegativeAmountGetsStrayComma | UiFormat.FormatCostSignedNoStrayComma |
| citiesSEO.go:158 | "timbertech-deck-installers" is displayed as "Trex Deck Installers" | path "/timbertech-deck-installers-woodland-wa" gets the title "Trex Deck Installers in Woodland, WA" | a TimberTech name, distinct from Trex | not executed; high: a duplicated table line | CitiesSeo.TimbertechShownAsTrex | CitiesSeo.PrettifyServiceDistinct |

=== FILE: basics.dfy ===
/** Shared vocabulary of the pricing engine: optional values, the (cost, error)
    pair every calculator returns, and the ceiling used for step counts. */
module Basics {

  /** An optional value; `None` stands for Go's nil error or an unparsable number. */
  datatype Option<T> = None | Some(value: T)

  /** The `(float64, error)` pair a calculator returns. `err == None` is Go's
      nil error; every error path of the calculators returns cost 0. */
  datatype Priced = Priced(cost: real, err: Option<string>) {
    predicate Failed() {
      err.Some?
    }
  }

  /** A successful calculation. */
  function Ok(cost: real): Priced {
    Priced(cost, None)
  }

  /** `return 0, fmt.Errorf(msg)`. */
  function Fail(msg: string): Priced {
    Priced(0.0, Some(msg))
  }

  /** `math.Ceil`, written as the negated floor of the negation: the least
      integer that is not below `x`. */
  function Ceil(x: real): (c: int)
    ensures x <= c as real < x + 1.0
  {
    -((-x).Floor)
  }
}

=== FILE: cities_seo.dfy ===
/** City landing pages (citiesSEO.go): every service slug is combined with
    every city into a URL slug "service-city-state", and a request path is
    parsed back by taking the last two '-'-separated parts as city and state. */
module CitiesSeo {
  import opened Basics
  import opened Text

  const ServiceSlugs: seq<string> := [
    "deck-builders",
    "patio-cover-contractors",
    "trex-deck-installers",
    "timbertech-deck-installers",
    "composite-decking",
    "outdoor-kitchen-builders",
    "pergola-builders",
    "outdoor-living"
  ]

  /** A served city: display name, URL-safe slug, state code. */
  datatype City = City(name: string, slug: string, state: string)

  const Cities: seq<City> := [
    City("Woodland", "woodland", "wa"),
    City("Ridgefield", "ridgefield", "wa"),
    City("Kalama", "kalama", "wa"),
    City("La Center", "lacenter", "wa")
  ]

  /** `fmt.Sprintf("%s-%s-%s", service, city.Slug, city.State)`. */
  function CitySlug(service: string, city: City): string {
    service + "-" + city.slug + "-" + city.state
  }

  /** Where each piece of a city slug sits: the service first, then '-', the
      city slug, '-', and the state last, with nothing else in between. */
  lemma CitySlugPieces(service: string, city: City)
    ensures var s := CitySlug(service, city);
      && |s| == |service| + |city.slug| + |city.state| + 2
      && s[..|service|] == service && s[|service|] == '-'
      && s[|service| + 1..|service| + 1 + |city.slug|] == city.slug && s[|service| + 1 + |city.slug|] == '-'
      && s[|s| - |city.state|..] == city.state
  {
  }

  /** The slugs of one service, city by city. */
  function Row(service: string, cities: seq<City>): (row: seq<string>)
    ensures |row| == |cities|
    ensures forall j :: 0 <= j < |cities| ==> row[j] == CitySlug(service, cities[j])
  {
    seq(|cities|, j requires 0 <= j < |cities| => CitySlug(service, cities[j]))
  }

  /** Reference order of the generated slugs: all cities of the first service,
      then all cities of the second, and so on. */
  function Slugs(services: seq<string>, cities: seq<City>): seq<string>
    decreases |services|
  {
    if services == [] then []
    else Slugs(services[..|services| - 1], cities) + Row(services[|services| - 1], cities)
  }

  /** The start-up loop filling `allCityPageSlugs`. */
  method GenerateSlugs(services: seq<string>, cities: seq<City>) returns (slugs: seq<string>)
    ensures slugs == Slugs(services, cities)
  {
    slugs := [];
    var i := 0;
    while i < |services|
      invariant 0 <= i <= |services|
      invariant slugs == Slugs(services[..i], cities)
    {
      var j := 0;
      while j < |cities|
        invariant 0 <= j <= |cities|
        invariant slugs == Slugs(services[..i], cities) + Row(services[i], cities[..j])
      {
        slugs := slugs + [CitySlug(services[i], cities[j])];
        j := j + 1;
        assert Row(services[i], cities[..j]) == Row(services[i], cities[..j - 1]) + [CitySlug(services[i], cities[j - 1])];
      }
      assert cities[..j] == cities;
      assert services[..i + 1][..i] == services[..i];
      i := i + 1;
    }
    assert services[..i] == services;
  }

  /** There is one slug per (service, city) pair, and the slug of service `i`
      and city `j` sits at position `i * |cities| + j`: service-major order. */
  lemma {:induction false} SlugAt(services: seq<string>, cities: seq<City>, i: int, j: int)
    requires 0 <= i < |services| && 0 <= j < |cities|
    ensures |Slugs(services, cities)| == |services| * |cities|
    ensures i * |cities| + j < |Slugs(services, cities)|
    ensures Slugs(services, cities)[i * |cities| + j] == CitySlug(services[i], cities[j])
    decreases |services|
  {
    var n, m := |services|, |cities|;
    var prefix := services[..n - 1];
    SlugCount(prefix, cities);
    assert |Slugs(services, cities)| == (n - 1) * m + m == n * m;
    if i == n - 1 {
      assert i * m + j == (n - 1) * m + j;
    } else {
      SlugAt(prefix, cities, i, j);
      assert prefix[i] == services[i];
    }
  }

  /** The number of generated slugs is |services| * |cities|. */
  lemma {:induction false} SlugCount(services: seq<string>, cities: seq<City>)
    ensures |Slugs(services, cities)| == |services| * |cities|
    decreases |services|
  {
    if services != [] {
      var n, m := |services|, |cities|;
      SlugCount(services[..n - 1], cities);
      assert (n - 1) * m + m == n * m;
    }
  }

  /** The slugs served by the site: 8 services x 4 cities = 32 pages. */
  lemma AllCityPageSlugsCount()
    ensures |Slugs(ServiceSlugs, Cities)| == 32
  {
    SlugCount(ServiceSlugs, Cities);
  }

  /** `parseCitySlug`: strip leading and trailing '/', split on '-'; fewer
      than four parts is "not a city page" (three empty strings); otherwise the
      last part is the state, the one before it the city, and the rest, joined
      back with '-', the service. A parsed result always rebuilds the trimmed
      path, and its city and state hold no '-'. */
  function ParseCitySlug(path: string): (r: (string, string, string))
    ensures |Split(Trim(path, '/'), '-')| < 4 ==> r == ("", "", "")
    ensures |Split(Trim(path, '/'), '-')| >= 4 ==>
      && r.0 + "-" + r.1 + "-" + r.2 == Trim(path, '/')
      && '-' in r.0 && '-' !in r.1 && '-' !in r.2
  {
    var parts := Split(Trim(path, '/'), '-');
    if |parts| < 4 then ("", "", "")
    else
      var state := parts[|parts| - 1];
      var city := parts[|parts| - 2];
      var service := Join(parts[..|parts| - 2], '-');
      ParseRebuilds(parts);
      JoinSplit(Trim(path, '/'), '-');
      (service, city, state)
  }

  /** Joining the parts back: the service joined from all but the last two
      parts, then city and state. */
  lemma {:induction false} ParseRebuilds(parts: seq<string>)
    requires |parts| >= 4
    requires forall i :: 0 <= i < |parts| ==> '-' !in parts[i]
    ensures var n := |parts|;
      && Join(parts[..n - 2], '-') + "-" + parts[n - 2] + "-" + parts[n - 1] == Join(parts, '-')
      && '-' in Join(parts[..n - 2], '-')
    decreases |parts|
  {
    var n := |parts|;
    JoinAppend(parts[..n - 2], [parts[n - 2], parts[n - 1]]);
    assert parts[..n - 2] + [parts[n - 2], parts[n - 1]] == parts;
    assert Join([parts[n - 2], parts[n - 1]], '-') == parts[n - 2] + "-" + parts[n - 1];
    var front := parts[..n - 2];
    assert Join(front, '-') == front[0] + "-" + Join(front[1..], '-');
    assert Join(front, '-')[|front[0]|] == '-';
  }

  /** Joining two non-empty lists of pieces puts one separator between them. */
  lemma {:induction false} JoinAppend(a: seq<string>, b: seq<string>)
    requires |a| >= 1 && |b| >= 1
    ensures Join(a + b, '-') == Join(a, '-') + "-" + Join(b, '-')
    decreases |a|
  {
    if |a| == 1 {
      assert (a + b)[1..] == b;
    } else {
      JoinAppend(a[1..], b);
      assert (a + b)[1..] == a[1..] + b;
    }
  }

  /** Round trip: a slug built from a service that holds a '-', and a city and
      state free of '-' and '/', parses back into its three components. */
  lemma ParseRoundTrip(service: string, city: string, state: string)
    requires '-' in service && service[0] != '/'
    requires '-' !in city && '-' !in state && '/' !in state
    ensures ParseCitySlug("/" + service + "-" + city + "-" + state) == (service, city, state)
  {
    var x := service + "-" + city + "-" + state;
    SlugTrimmed(service, city, state);
    SlugSplits(service, city, state);
    var sp := Split(service, '-');
    SplitWithSeparator(service, '-');
    JoinSplit(service, '-');
    LastTwoPieces(sp, city, state);
  }

  lemma LastTwoPieces(sp: seq<string>, city: string, state: string)
    ensures var parts := sp + [city] + [state];
      && |parts| == |sp| + 2
      && parts[..|parts| - 2] == sp && parts[|parts| - 2] == city && parts[|parts| - 1] == state
  {
  }

  /** The leading '/' is the only thing trimming removes from a page path. */
  lemma SlugTrimmed(service: string, city: string, state: string)
    requires service != [] && service[0] != '/' && '/' !in state
    ensures Trim("/" + service + "-" + city + "-" + state, '/') == service + "-" + city + "-" + state
  {
    SlashedSlug(service, city, state);
    SlugEnds(service, city, state);
    TrimOneLeading(service + "-" + city + "-" + state, '/');
  }

  lemma SlashedSlug(service: string, city: string, state: string)
    ensures "/" + service + "-" + city + "-" + state == ['/'] + (service + "-" + city + "-" + state)
  {
  }

  /** A slug starts with its service's first character and ends with the
      state's last one, or with the '-' before an empty state. */
  lemma SlugEnds(service: string, city: string, state: string)
    requires service != [] && service[0] != '/' && '/' !in state
    ensures var x := service + "-" + city + "-" + state;
      x != [] && x[0] != '/' && x[|x| - 1] != '/'
  {
    var a := service + "-" + city + "-";
    var x := a + state;
    assert a[0] == service[0] && a[|a| - 1] == '-';
    assert x[0] == a[0];
    if state == [] {
      assert x == a;
    } else {
      assert x[|x| - 1] == state[|state| - 1];
    }
  }

  /** A slug splits into the pieces of its service, then its city and state. */
  lemma SlugSplits(service: string, city: string, state: string)
    requires '-' !in city && '-' !in state
    ensures Split(service + "-" + city + "-" + state, '-') == Split(service, '-') + [city] + [state]
  {
    SplitAtSeparator(service + "-" + city, state, '-');
    SplitAtSeparator(service, city, '-');
    assert service + "-" + city + "-" + state == (service + "-" + city) + ['-'] + state;
    assert service + "-" + city == service + ['-'] + city;
    SplitNoSeparator(city, '-');
    SplitNoSeparator(state, '-');
  }

  /** Every served service slug holds a '-' and does not start with '/'. */
  lemma ServiceSlugsShape(i: int)
    requires 0 <= i < |ServiceSlugs|
    ensures '-' in ServiceSlugs[i] && ServiceSlugs[i][0] != '/'
  {
    var s := ServiceSlugs[i];
    if i == 0 { assert s[4] == '-'; }
    else if i == 1 { assert s[5] == '-'; }
    else if i == 2 { assert s[4] == '-'; }
    else if i == 3 { assert s[10] == '-'; }
    else if i == 4 { assert s[9] == '-'; }
    else if i == 5 { assert s[7] == '-'; }
    else if i == 6 { assert s[7] == '-'; }
    else { assert s[7] == '-'; }
  }

  /** Every served city slug and state is free of '-' and '/', and the city
      slug is not empty. */
  lemma CitiesShape(j: int)
    requires 0 <= j < |Cities|
    ensures '-' !in Cities[j].slug && '/' !in Cities[j].slug && Cities[j].slug != ""
    ensures '-' !in Cities[j].state && '/' !in Cities[j].state
  {
  }

  /** Served service slugs hold no upper-case letters. */
  lemma ServiceSlugLowerCase(i: int)
    requires 0 <= i < |ServiceSlugs|
    ensures NoUpper(ServiceSlugs[i])
  {
    if i < 4 {
      FirstServicesLowerCase(i);
    } else {
      LastServicesLowerCase(i);
    }
  }

  lemma FirstServicesLowerCase(i: int)
    requires 0 <= i < 4
    ensures NoUpper(ServiceSlugs[i])
  {
    if i == 0 {} else if i == 1 {} else if i == 2 {} else {}
  }

  lemma LastServicesLowerCase(i: int)
    requires 4 <= i < |ServiceSlugs|
    ensures NoUpper(ServiceSlugs[i])
  {
    if i == 4 {} else if i == 5 {} else if i == 6 {} else {}
  }

  /** Served city slugs and states hold no upper-case letters. */
  lemma CitiesLowerCase(j: int)
    requires 0 <= j < |Cities|
    ensures NoUpper(Cities[j].slug) && NoUpper(Cities[j].state)
  {
    if j == 0 {} else if j == 1 {} else if j == 2 {} else {}
  }

  /** Every generated city page parses back into its service, city and state,
      and the city is non-empty, so it is never answered with "not found". */
  lemma GeneratedSlugsParse(i: int, j: int)
    requires 0 <= i < |ServiceSlugs| && 0 <= j < |Cities|
    ensures ParseCitySlug("/" + CitySlug(ServiceSlugs[i], Cities[j])) == (ServiceSlugs[i], Cities[j].slug, Cities[j].state)
    ensures Cities[j].slug != ""
  {
    ServiceSlugsShape(i);
    CitiesShape(j);
    ParseCitySlugOfCitySlug(ServiceSlugs[i], Cities[j]);
  }

  /** The round trip stated on `CitySlug`. */
  lemma ParseCitySlugOfCitySlug(service: string, city: City)
    requires '-' in service && service[0] != '/'
    requires '-' !in city.slug && '-' !in city.state && '/' !in city.state
    ensures ParseCitySlug("/" + CitySlug(service, city)) == (service, city.slug, city.state)
  {
    ParseRoundTrip(service, city.slug, city.state);
    SlashedCitySlug(service, city);
  }

  lemma SlashedCitySlug(service: string, city: City)
    ensures "/" + CitySlug(service, city) == "/" + service + "-" + city.slug + "-" + city.state
  {
  }

  /** A city slug holding a '-' does not survive the round trip: everything
      up to its last '-' is read as part of the service. */
  lemma HyphenatedCitySlugMisparsed(service: string, first: string, rest: string, state: string)
    requires '-' in service && service[0] != '/'
    requires '-' !in first && '-' !in rest && '-' !in state && '/' !in state
    ensures ParseCitySlug("/" + CitySlug(service, City("", first + "-" + rest, state)))
      == (service + "-" + first, rest, state)
  {
    var front := service + "-" + first;
    HyphenInFront(service, first);
    ParseRoundTrip(front, rest, state);
    HyphenatedSlugRegrouped(service, first, rest, state);
  }

  lemma HyphenInFront(service: string, first: string)
    requires '-' in service && service[0] != '/'
    ensures '-' in service + "-" + first && (service + "-" + first)[0] != '/'
  {
    var k :| 0 <= k < |service| && service[k] == '-';
    assert (service + "-" + first)[k] == '-';
  }

  lemma HyphenatedSlugRegrouped(service: string, first: string, rest: string, state: string)
    ensures "/" + CitySlug(service, City("", first + "-" + rest, state))
      == "/" + (service + "-" + first) + "-" + rest + "-" + state
  {
  }

  /** The slug "la-center" that the comment beside the city table proposes
      for La Center is such a slug: with it, the deck-builders page of La
      Center would be read as service "deck-builders-la" in city "center". */
  lemma HyphenatedCityMisparsed()
    ensures ParseCitySlug("/" + CitySlug("deck-builders", City("La Center", "la-center", "wa")))
      == ("deck-builders-la", "center", "wa")
  {
    LaCenterPieces();
    HyphenatedCitySlugMisparsed("deck-builders", "la", "center", "wa");
    assert CitySlug("deck-builders", City("La Center", "la-center", "wa"))
      == CitySlug("deck-builders", City("", "la" + "-" + "center", "wa"));
  }

  lemma LaCenterPieces()
    ensures "la" + "-" + "center" == "la-center" && "deck-builders" + "-" + "la" == "deck-builders-la"
    ensures '-' in "deck-builders" && "deck-builders"[0] != '/'
    ensures '-' !in "la" && '-' !in "center" && '-' !in "wa" && '/' !in "wa"
  {
    assert "deck-builders"[4] == '-';
  }

  /** The service display-name table of `prettifyService`, as written. A slug
      outside the table falls back to title-casing, which is not modelled
      (`None`). */
  function PrettifyServiceAsWritten(slug: string): (r: Option<string>)
    ensures r.Some? <==> slug in ServiceSlugs
  {
    match slug
    case "deck-builders" => Some("Deck Builders")
    case "patio-cover-contractors" => Some("Patio Cover Contractors")
    case "trex-deck-installers" => Some("Trex Deck Installers")
    case "timbertech-deck-installers" => Some("Trex Deck Installers")
    case "composite-decking" => Some("Composite Decking Experts")
    case "outdoor-kitchen-builders" => Some("Outdoor Kitchen Builders")
    case "pergola-builders" => Some("Pergola Builders")
    case "outdoor-living" => Some("Outdoor Living")
    case _ => None
  }

  /** As written, the TimberTech pages are titled as Trex pages: two
      different services share one display name. */
  lemma TimbertechShownAsTrex()
    ensures PrettifyServiceAsWritten("timbertech-deck-installers") == PrettifyServiceAsWritten("trex-deck-installers")
    ensures PrettifyServiceAsWritten("timbertech-deck-installers") == Some("Trex Deck Installers")
  {
  }

  /** The display-name table with the TimberTech entry named after TimberTech. */
  function PrettifyService(slug: string): Option<string> {
    if slug == "timbertech-deck-installers" then Some("TimberTech Deck Installers")
    else PrettifyServiceAsWritten(slug)
  }

  /** The corrected table read backwards: the service a display name belongs to. */
  function ServiceOfName(name: string): Option<string> {
    match name
    case "Deck Builders" => Some("deck-builders")
    case "Patio Cover Contractors" => Some("patio-cover-contractors")
    case "Trex Deck Installers" => Some("trex-deck-installers")
    case "TimberTech Deck Installers" => Some("timbertech-deck-installers")
    case "Composite Decking Experts" => Some("composite-decking")
    case "Outdoor Kitchen Builders" => Some("outdoor-kitchen-builders")
    case "Pergola Builders" => Some("pergola-builders")
    case "Outdoor Living" => Some("outdoor-living")
    case _ => None
  }

  /** Every served service's corrected display name leads back to it. */
  lemma PrettifyServiceInverse(a: string)
    requires a in ServiceSlugs
    ensures PrettifyService(a).Some? && ServiceOfName(PrettifyService(a).value) == Some(a)
  {
    var i :| 0 <= i < |ServiceSlugs| && ServiceSlugs[i] == a;
    if i < 4 {
      if i == 0 {} else if i == 1 {} else if i == 2 {} else {}
    } else {
      if i == 4 {} else if i == 5 {} else if i == 6 {} else {}
    }
  }

  /** The corrected table names exactly the served services, gives different
      services different names, and agrees with the original everywhere else. */
  lemma PrettifyServiceDistinct(a: string, b: string)
    ensures PrettifyService(a).Some? <==> a in ServiceSlugs
    ensures a in ServiceSlugs && b in ServiceSlugs && a != b ==> PrettifyService(a) != PrettifyService(b)
    ensures a != "timbertech-deck-installers" ==> PrettifyService(a) == PrettifyServiceAsWritten(a)
  {
    if a in ServiceSlugs && b in ServiceSlugs {
      PrettifyServiceInverse(a);
      PrettifyServiceInverse(b);
    }
  }
}

=== FILE: costs.dfy ===
/** The rate table loaded from configuration at start-up (costs.go). Loading
    is outside the model; the table is an input to every calculator. */
module RateTable {

  /** Per-square-foot deck rates, per-linear-foot rail and infill rates, and the
      two scalar rates. `demoCost` is carried but no calculator reads it. */
  datatype Costs = Costs(
    deckMaterials: map<string, real>,
    railMaterials: map<string, real>,
    railInfills: map<string, real>,
    demoCost: real,
    fasciaCost: real)

  /** A Go map read: a missing key reads as the zero value 0.0. */
  function Rate(m: map<string, real>, key: string): (r: real)
    ensures key in m ==> r == m[key]
    ensures key !in m ==> r == 0.0
  {
    if key in m then m[key] else 0.0
  }

  /** Every rate in the map is non-negative. */
  predicate NonNegativeRates(m: map<string, real>) {
    forall k :: k in m ==> m[k] >= 0.0
  }

  /** A table whose every rate is non-negative, the usual configuration. */
  predicate WellFormed(costs: Costs) {
    && NonNegativeRates(costs.deckMaterials)
    && NonNegativeRates(costs.railMaterials)
    && NonNegativeRates(costs.railInfills)
    && costs.demoCost >= 0.0
    && costs.fasciaCost >= 0.0
  }

  /** Reading a non-negative map never yields a negative rate, present key or not. */
  lemma RateNonNegative(m: map<string, real>, key: string)
    requires NonNegativeRates(m)
    ensures Rate(m, key) >= 0.0
  {
  }
}

=== FILE: deck.dfy ===
/** Deck surface cost (deck.go): area times the material's rate, with a 1% per
    foot surcharge above 4 ft and a hard refusal from 20 ft. */
module Deck {
  import opened Basics
  import opened RateTable

  const InvalidMaterial := "please select a valid material"
  const HeightTooHigh := "we can't build decks 20 feet or higher without additional information"

  /** The surcharge multiplier as a continuous function of height: 1 up to
      4 ft, then 1% more for every foot above 4 ft. */
  function HeightMultiplier(height: real): (m: real)
    ensures m >= 1.0
    ensures height <= 4.0 ==> m == 1.0
    ensures height >= 4.0 ==> m == 1.0 + (height - 4.0) / 100.0
  {
    if height <= 4.0 then 1.0 else 1.0 + (height - 4.0) / 100.0
  }

  /** `CalculateDeckCost`: the material must be a key of the deck-rate table
      (checked first), the height must be below 20 ft; otherwise the cost is
      the base cost scaled by the height multiplier. */
  function CalculateDeckCost(length: real, width: real, height: real, material: string, costs: Costs): (r: Priced)
    ensures material !in costs.deckMaterials ==> r == Fail(InvalidMaterial)
    ensures material in costs.deckMaterials && height >= 20.0 ==> r == Fail(HeightTooHigh)
    ensures material in costs.deckMaterials && height < 20.0 ==>
      r == Ok(length * width * costs.deckMaterials[material] * HeightMultiplier(height))
  {
    var area := length * width;
    if material !in costs.deckMaterials then Fail(InvalidMaterial)
    else
      var baseCost := area * costs.deckMaterials[material];
      if height >= 20.0 then Fail(HeightTooHigh)
      else if height > 4.0 then
        var excessHeight := height - 4.0;
        var multiplier := 1.0 + excessHeight * 0.01;
        Ok(baseCost * multiplier)
      else Ok(baseCost)
  }

  /** The calculation fails exactly for an unknown material or a height of
      20 ft or more, and a failure carries cost 0. */
  lemma DeckErrorIff(length: real, width: real, height: real, material: string, costs: Costs)
    ensures CalculateDeckCost(length, width, height, material, costs).Failed()
        <==> material !in costs.deckMaterials || height >= 20.0
    ensures CalculateDeckCost(length, width, height, material, costs).Failed()
        ==> CalculateDeckCost(length, width, height, material, costs).cost == 0.0
  {
  }

  /** With non-negative dimensions and rate, a successful deck cost is never
      below the base cost `length * width * rate`, and so never negative. */
  lemma {:induction false} DeckCostAtLeastBase(length: real, width: real, height: real, material: string, costs: Costs)
    requires length >= 0.0 && width >= 0.0 && height < 20.0
    requires material in costs.deckMaterials && costs.deckMaterials[material] >= 0.0
    ensures var r := CalculateDeckCost(length, width, height, material, costs);
      && !r.Failed()
      && r.cost >= length * width * costs.deckMaterials[material]
      && r.cost >= 0.0
  {
    var base := length * width * costs.deckMaterials[material];
    assert length * width >= 0.0;
    assert base >= 0.0;
    var m := HeightMultiplier(height);
    assert base * m == base + base * (m - 1.0);
    assert base * (m - 1.0) >= 0.0;
  }

  /** Raising the deck (below 20 ft) never lowers its price. */
  lemma {:induction false} DeckCostMonotoneInHeight(length: real, width: real, h1: real, h2: real, material: string, costs: Costs)
    requires length >= 0.0 && width >= 0.0 && h1 <= h2 < 20.0
    requires material in costs.deckMaterials && costs.deckMaterials[material] >= 0.0
    ensures CalculateDeckCost(length, width, h1, material, costs).cost
         <= CalculateDeckCost(length, width, h2, material, costs).cost
  {
    var base := length * width * costs.deckMaterials[material];
    assert length * width >= 0.0;
    assert base >= 0.0;
    var m1, m2 := HeightMultiplier(h1), HeightMultiplier(h2);
    assert m1 <= m2;
    assert base * m2 - base * m1 == base * (m2 - m1);
    assert base * (m2 - m1) >= 0.0;
  }

  /** The boundary of the height policy: 20 ft is refused, anything below is
      priced. */
  lemma DeckHeightBoundary(length: real, width: real, material: string, costs: Costs)
    requires material in costs.deckMaterials
    ensures CalculateDeckCost(length, width, 20.0, material, costs) == Fail(HeightTooHigh)
    ensures !CalculateDeckCost(length, width, 19.999, material, costs).Failed()
  {
  }

  /** A 20 x 12 ft cedar deck, 3 ft high, at 40 per square foot costs 9600. */
  lemma DeckScenario(costs: Costs)
    requires costs.deckMaterials == map["cedar" := 40.0]
    ensures CalculateDeckCost(20.0, 12.0, 3.0, "cedar", costs) == Ok(9600.0)
  {
  }
}

=== FILE: demo.dfy ===
/** Demolition cost (demo.go): a fixed 5 per square foot of deck area. The
    rate table's `demoCost` is not consulted. */
module Demo {

  const DemoRate: real := 5.0

  /** `CalculateDemoCost`: depends on the area alone. */
  function CalculateDemoCost(deckArea: real): (r: real)
    ensures deckArea >= 0.0 ==> r >= deckArea
    ensures deckArea == 0.0 <==> r == 0.0
  {
    var demoRate := 5.0;
    deckArea * demoRate
  }

  /** Demolition is priced linearly: two areas together cost what they cost
      apart, and a larger area never costs less. */
  lemma DemoLinear(a: real, b: real)
    ensures CalculateDemoCost(a + b) == CalculateDemoCost(a) + CalculateDemoCost(b)
    ensures a <= b ==> CalculateDemoCost(a) <= CalculateDemoCost(b)
    ensures CalculateDemoCost(a) == a * DemoRate
  {
  }
}

=== FILE: estimate.dfy ===
/** The calculation path of the estimate handler (estimate.go), lifted out of
    HTTP: a POST either saves or accepts the session's estimate, or reads the
    form, applies a finish-level preset, forgets any earlier save, and runs the
    pricing pipeline, stopping at the first calculator that reports an error. */
module Estimate {
  import opened Basics
  import opened RateTable
  import Deck
  import Rails
  import Stairs
  import Fascia
  import Demo
  import Tax

  /** Go's `time.Time`, reduced to "zero value" or an instant. */
  datatype Time = Zero | At(instant: int)

  /** Contact details of the customer, kept in the session. */
  datatype Customer = Customer(
    firstName: string,
    lastName: string,
    address: string,
    phoneNumber: string,
    email: string,
    city: string,
    state: string,
    zip: string)

  const NoCustomer := Customer("", "", "", "", "", "", "", "")

  /** One deck estimate: the project description, every line item, the
      totals, the save metadata and at most one error message. (The terms text
      is attached only when the page is rendered and is not modelled.) */
  datatype DeckEstimate = DeckEstimate(
    desc: string,
    length: real,
    width: real,
    height: real,
    deckArea: real,
    material: string,
    railMaterial: string,
    railInfill: string,
    totalCost: real,
    deckCost: real,
    railCost: real,
    stairCost: real,
    subtotal: real,
    hasFascia: bool,
    fasciaCost: real,
    fasciaFeet: real,
    stairWidth: real,
    stairRailCount: real,
    stairRailCost: real,
    hasStairFascia: bool,
    stairFasciaCost: real,
    stairToeKickCost: real,
    hasStairTK: bool,
    demoCost: real,
    hasDemo: bool,
    railFeet: real,
    salesTax: real,
    customer: Customer,
    estimateID: int,
    expirationDate: Time,
    saveDate: Time,
    acceptDate: Time,
    error: string)

  /** The zero value `DeckEstimate{}`. */
  const Blank := DeckEstimate(
    "", 0.0, 0.0, 0.0, 0.0, "", "", "", 0.0, 0.0, 0.0, 0.0, 0.0, false, 0.0, 0.0,
    0.0, 0.0, 0.0, false, 0.0, 0.0, false, 0.0, false, 0.0, 0.0,
    NoCustomer, 0, Zero, Zero, Zero, "")

  /** `DeckEstimate{Error: msg}`: a rejection carries the message and nothing else. */
  function Rejected(msg: string): DeckEstimate {
    Blank.(error := msg)
  }

  const LengthInvalid := "Deck Length must be a positive number"
  const WidthInvalid := "Deck Width must be a positive number"
  const HeightInvalid := "Deck Height must be a non-negative number"
  const SaveIncomplete := "Please complete Customer and Estimate before Saving."

  /** The posted form. Numeric fields are already parsed: `None` is a value
      `strconv.ParseFloat` rejects (including a missing field). Check boxes
      arrive as their raw strings ("on" when ticked). */
  datatype Form = Form(
    save: string,
    accept: string,
    length: Option<real>,
    width: Option<real>,
    height: Option<real>,
    stairWidth: Option<real>,
    stairRailCount: Option<real>,
    desc: string,
    material: string,
    railMaterial: string,
    railInfill: string,
    hasDemo: string,
    hasFascia: string,
    hasStairFascia: string,
    hasStairTK: string,
    finish: string,
    hasStairs: string)

  predicate Positive(v: Option<real>) {
    v.Some? && v.value > 0.0
  }

  predicate NonNegative(v: Option<real>) {
    v.Some? && v.value >= 0.0
  }

  /** The handler's defaulting of an optional number: unparsable or negative
      becomes 0, anything else is kept. */
  function ZeroIfInvalid(v: Option<real>): (r: real)
    ensures r >= 0.0
    ensures NonNegative(v) ==> r == v.value
    ensures !NonNegative(v) ==> r == 0.0
  {
    if v.None? || v.value < 0.0 then 0.0 else v.value
  }

  /** Outcome of reading the form: a filled estimate, or the first message. */
  datatype Checked = Valid(estimate: DeckEstimate) | Invalid(message: string)

  /** Reads the numeric and plain fields of the form into the session's
      estimate. Length, width and height are checked in that order and the first
      failure is reported; stair width and stair-rail count never fail. */
  function ReadForm(e: DeckEstimate, f: Form): (r: Checked)
    ensures r.Invalid? <==> !Positive(f.length) || !Positive(f.width) || !NonNegative(f.height)
    ensures !Positive(f.length) ==> r == Invalid(LengthInvalid)
    ensures Positive(f.length) && !Positive(f.width) ==> r == Invalid(WidthInvalid)
    ensures Positive(f.length) && Positive(f.width) && !NonNegative(f.height) ==> r == Invalid(HeightInvalid)
    ensures r.Valid? ==>
      && r.estimate.length == f.length.value > 0.0
      && r.estimate.width == f.width.value > 0.0
      && r.estimate.height == f.height.value >= 0.0
      && r.estimate.deckArea == r.estimate.length * r.estimate.width
      && r.estimate.stairWidth == ZeroIfInvalid(f.stairWidth)
      && r.estimate.stairRailCount == ZeroIfInvalid(f.stairRailCount)
      && r.estimate.material == f.material
      && r.estimate.railMaterial == f.railMaterial
      && r.estimate.railInfill == f.railInfill
      && (r.estimate.hasDemo <==> f.hasDemo == "on")
      && (r.estimate.hasFascia <==> f.hasFascia == "on")
      && (r.estimate.hasStairFascia <==> f.hasStairFascia == "on")
      && (r.estimate.hasStairTK <==> f.hasStairTK == "on")
      && r.estimate.desc == f.desc
      && r.estimate.customer == e.customer
    ensures r.Valid? ==>
      r.estimate.(desc := e.desc, length := e.length, width := e.width, height := e.height,
                  deckArea := e.deckArea, material := e.material, railMaterial := e.railMaterial,
                  railInfill := e.railInfill, hasDemo := e.hasDemo, hasFascia := e.hasFascia,
                  stairWidth := e.stairWidth, stairRailCount := e.stairRailCount,
                  hasStairFascia := e.hasStairFascia, hasStairTK := e.hasStairTK) == e
  {
    if f.length.None? || f.length.value <= 0.0 then Invalid(LengthInvalid)
    else if f.width.None? || f.width.value <= 0.0 then Invalid(WidthInvalid)
    else if f.height.None? || f.height.value < 0.0 then Invalid(HeightInvalid)
    else Valid(Filled(e, f))
  }

  /** The estimate with the form's fields copied in, once the three dimensions
      have been checked. */
  function Filled(e: DeckEstimate, f: Form): (r: DeckEstimate)
    requires Positive(f.length) && Positive(f.width) && NonNegative(f.height)
    ensures r.length == f.length.value && r.width == f.width.value && r.height == f.height.value
    ensures r.deckArea == r.length * r.width
    ensures r.stairWidth == ZeroIfInvalid(f.stairWidth) && r.stairRailCount == ZeroIfInvalid(f.stairRailCount)
    ensures r.material == f.material && r.railMaterial == f.railMaterial && r.railInfill == f.railInfill
    ensures (r.hasDemo <==> f.hasDemo == "on") && (r.hasFascia <==> f.hasFascia == "on")
    ensures (r.hasStairFascia <==> f.hasStairFascia == "on") && (r.hasStairTK <==> f.hasStairTK == "on")
    ensures r.desc == f.desc
    ensures r.(desc := e.desc, length := e.length, width := e.width, height := e.height,
               deckArea := e.deckArea, material := e.material, railMaterial := e.railMaterial,
               railInfill := e.railInfill, hasDemo := e.hasDemo, hasFascia := e.hasFascia,
               stairWidth := e.stairWidth, stairRailCount := e.stairRailCount,
               hasStairFascia := e.hasStairFascia, hasStairTK := e.hasStairTK) == e
  {
    var length, width := f.length.value, f.width.value;
    e.(desc := f.desc,
       length := length,
       width := width,
       height := f.height.value,
       deckArea := length * width,
       material := f.material,
       railMaterial := f.railMaterial,
       railInfill := f.railInfill,
       hasDemo := f.hasDemo == "on",
       hasFascia := f.hasFascia == "on",
       stairWidth := ZeroIfInvalid(f.stairWidth),
       stairRailCount := ZeroIfInvalid(f.stairRailCount),
       hasStairFascia := f.hasStairFascia == "on",
       hasStairTK := f.hasStairTK == "on")
  }

  /** The eight selections a finish level decides. */
  datatype Config = Config(
    material: string,
    railMaterial: string,
    railInfill: string,
    hasFascia: bool,
    stairWidth: real,
    stairRailCount: real,
    hasStairFascia: bool,
    hasStairTK: bool)

  function ConfigOf(e: DeckEstimate): Config {
    Config(e.material, e.railMaterial, e.railInfill, e.hasFascia, e.stairWidth, e.stairRailCount, e.hasStairFascia, e.hasStairTK)
  }

  function WithConfig(e: DeckEstimate, c: Config): DeckEstimate {
    e.(material := c.material, railMaterial := c.railMaterial, railInfill := c.railInfill,
       hasFascia := c.hasFascia, stairWidth := c.stairWidth, stairRailCount := c.stairRailCount,
       hasStairFascia := c.hasStairFascia, hasStairTK := c.hasStairTK)
  }

  /** The finish-level table, economy "1" to premium "5". Every preset has a
      deck material, a rail material with an infill, rails on both sides of the
      stairs and a buildable stair width; only levels 4 and 5 add fascia. */
  function Preset(level: string): (c: Option<Config>)
    ensures c.Some? <==> level in {"1", "2", "3", "4", "5"}
    ensures c.Some? ==>
      && c.value.material != ""
      && c.value.railMaterial != "" && c.value.railInfill != ""
      && c.value.stairWidth >= 3.0
      && c.value.stairRailCount == 2.0
      && (c.value.hasFascia <==> level in {"4", "5"})
  {
    match level
    case "1" => Some(Config("outdoorWood", "wood", "balusters", false, 3.0, 2.0, false, false))
    case "2" => Some(Config("cedar", "wood", "balusters", false, 3.0, 2.0, false, false))
    case "3" => Some(Config("timberTechPrime", "aluminum", "balusters", false, 3.5, 2.0, false, true))
    case "4" => Some(Config("timberTechProReserve", "aluminum", "cable", true, 4.0, 2.0, false, true))
    case "5" => Some(Config("timberTechProLegacy", "composite", "glass", true, 4.0, 2.0, true, true))
    case _ => None
  }

  /** The selections a finish level asks for: the preset's for a known level,
      the estimate's own for an unknown one. */
  function Chosen(e: DeckEstimate, finish: string): Config {
    if Preset(finish).Some? then Preset(finish).value else ConfigOf(e)
  }

  /** The finish block of the handler. With no finish level nothing happens.
      Otherwise a known level overwrites the selections (an unknown one leaves
      them), then a deck lower than 2.5 ft loses its rails, and without
      "hasStairs" = "on" the stairs and everything on them are removed. Only
      the eight selections can change. */
  function ApplyFinish(e: DeckEstimate, finish: string, hasStairs: string): (r: DeckEstimate)
    ensures r == WithConfig(e, ConfigOf(r))
    ensures finish == "" ==> r == e
    ensures finish != "" && Preset(finish).None? && e.height >= 2.5 && hasStairs == "on" ==> r == e
    ensures finish != "" ==>
      && r.material == Chosen(e, finish).material
      && r.hasFascia == Chosen(e, finish).hasFascia
    ensures finish != "" ==>
      && r.railMaterial == (if e.height < 2.5 then "" else Chosen(e, finish).railMaterial)
      && r.railInfill == (if e.height < 2.5 then "" else Chosen(e, finish).railInfill)
    ensures finish != "" ==>
      r.stairRailCount == (if e.height < 2.5 || hasStairs != "on" then 0.0 else Chosen(e, finish).stairRailCount)
    ensures finish != "" ==>
      && r.stairWidth == (if hasStairs != "on" then 0.0 else Chosen(e, finish).stairWidth)
      && r.hasStairFascia == (hasStairs == "on" && Chosen(e, finish).hasStairFascia)
      && r.hasStairTK == (hasStairs == "on" && Chosen(e, finish).hasStairTK)
  {
    if finish == "" then e
    else
      var preset := if Preset(finish).Some? then WithConfig(e, Preset(finish).value) else e;
      var railed := if preset.height < 2.5 then preset.(railMaterial := "", railInfill := "", stairRailCount := 0.0) else preset;
      if hasStairs != "on" then
        railed.(stairWidth := 0.0, stairRailCount := 0.0, hasStairFascia := false, hasStairTK := false)
      else railed
  }

  /** After a known finish level the stair width is 0 or buildable, and rails
      are either fully chosen or fully absent: the stair and rail calculators
      cannot fail on a preset configuration. */
  lemma PresetsPriceCleanly(e: DeckEstimate, finish: string, hasStairs: string)
    requires Preset(finish).Some?
    ensures var r := ApplyFinish(e, finish, hasStairs);
      && !Stairs.CalculateStairCost(r.height, r.stairWidth, 0.0).Failed()
      && !(r.railMaterial == "" && r.railInfill != "")
  {
    var r := ApplyFinish(e, finish, hasStairs);
    Stairs.StairErrorIff(r.height, r.stairWidth, 0.0);
  }

  /** Whenever a recalculation starts, the save state is forgotten: no save,
      expiry or acceptance date, estimate number 0, no error. Nothing else
      changes. */
  function ResetSaveState(e: DeckEstimate): (r: DeckEstimate)
    ensures r.saveDate == Zero && r.expirationDate == Zero && r.acceptDate == Zero
    ensures r.estimateID == 0 && r.error == ""
    ensures r.(saveDate := e.saveDate, expirationDate := e.expirationDate, acceptDate := e.acceptDate,
               estimateID := e.estimateID, error := e.error) == e
  {
    e.(saveDate := Zero, estimateID := 0, expirationDate := Zero, acceptDate := Zero, error := "")
  }

  /** Everything before pricing: read and validate the form, apply the finish
      level, forget the earlier save. */
  function Prepare(e: DeckEstimate, f: Form): (r: Checked)
    ensures r.Invalid? <==> ReadForm(e, f).Invalid?
    ensures r.Invalid? ==> r == ReadForm(e, f)
    ensures r.Valid? ==>
      && r.estimate.saveDate == Zero && r.estimate.expirationDate == Zero && r.estimate.acceptDate == Zero
      && r.estimate.estimateID == 0 && r.estimate.error == ""
      && r.estimate.length > 0.0 && r.estimate.width > 0.0 && r.estimate.height >= 0.0
      && r.estimate.deckArea == r.estimate.length * r.estimate.width
      && r.estimate.stairWidth >= 0.0 && r.estimate.stairRailCount >= 0.0
    ensures r.Valid? ==>
      r.estimate == ResetSaveState(ApplyFinish(ReadForm(e, f).estimate, f.finish, f.hasStairs))
  {
    match ReadForm(e, f)
    case Invalid(msg) => Invalid(msg)
    case Valid(read) => Valid(ResetSaveState(ApplyFinish(read, f.finish, f.hasStairs)))
  }

  /** One calculator applied to the estimate, as the methods of estimate.go do:
      it fills its own fields, or sets `error`. */
  type Step = (DeckEstimate, Costs) -> DeckEstimate

  /** The eight calculators in the order the handler calls them. */
  datatype Steps = Steps(
    deck: Step,
    stair: Step,
    rail: Step,
    stairRail: Step,
    stairFascia: Step,
    stairToeKick: Step,
    demo: Step,
    fascia: Step)

  /** The line items that make up the subtotal. The stair toe-kick cost is
      computed but not among them. */
  function BilledLines(e: DeckEstimate): real {
    e.deckCost + e.railCost + e.stairCost + e.stairRailCost + e.demoCost + e.fasciaCost + e.stairFasciaCost
  }

  /** Fills subtotal, tax and total; nothing else changes. */
  function WithTotals(e: DeckEstimate): (r: DeckEstimate)
    ensures r.subtotal == BilledLines(e) == BilledLines(r)
    ensures r.totalCost == r.subtotal * 1.087
    ensures r.totalCost == r.subtotal + r.salesTax
    ensures r.subtotal >= 0.0 ==> 0.0 <= r.salesTax <= r.subtotal
    ensures r.(subtotal := e.subtotal, salesTax := e.salesTax, totalCost := e.totalCost) == e
  {
    var subtotal := e.deckCost + e.railCost + e.stairCost + e.stairRailCost + e.demoCost + e.fasciaCost + e.stairFasciaCost;
    var salesTax := Tax.CalculateSalesTax(subtotal);
    e.(subtotal := subtotal, salesTax := salesTax, totalCost := subtotal + salesTax)
  }

  /** The stair toe-kick figure never reaches the total. */
  lemma ToeKickNotBilled(e: DeckEstimate, toeKick: real)
    ensures WithTotals(e.(stairToeKickCost := toeKick)).totalCost == WithTotals(e).totalCost
  {
  }

  /** The calculators after the rail step, which the handler runs without
      checking for errors. */
  function Remaining(e: DeckEstimate, costs: Costs, steps: Steps): (r: DeckEstimate)
    ensures r == steps.fascia(steps.demo(steps.stairToeKick(steps.stairFascia(steps.stairRail(e, costs), costs), costs), costs), costs)
  {
    var a := steps.stairRail(e, costs);
    var b := steps.stairFascia(a, costs);
    var c := steps.stairToeKick(b, costs);
    var d := steps.demo(c, costs);
    steps.fascia(d, costs)
  }

  /** The pricing pipeline. The deck, stair and rail steps are each followed by
      an error check; the first one that sets `error` ends pricing and its
      estimate is returned as it stands, without totals. Otherwise the
      remaining steps run and the totals are filled in from the line items. */
  function Price(e: DeckEstimate, costs: Costs, steps: Steps): (r: DeckEstimate)
    ensures var d := steps.deck(e, costs);
      d.error != "" ==> r == d
    ensures var d := steps.deck(e, costs); var s := steps.stair(d, costs);
      d.error == "" && s.error != "" ==> r == s
    ensures var d := steps.deck(e, costs); var s := steps.stair(d, costs); var l := steps.rail(s, costs);
      d.error == "" && s.error == "" && l.error != "" ==> r == l
    ensures var d := steps.deck(e, costs); var s := steps.stair(d, costs); var l := steps.rail(s, costs);
      d.error == "" && s.error == "" && l.error == "" ==>
        var x := Remaining(l, costs, steps);
        && r.subtotal == BilledLines(x) == BilledLines(r)
        && r.totalCost == r.subtotal * 1.087
        && r.salesTax == Tax.CalculateSalesTax(r.subtotal) && r.totalCost == r.subtotal + r.salesTax
        && r.(subtotal := x.subtotal, salesTax := x.salesTax, totalCost := x.totalCost) == x
  {
    var afterDeck := steps.deck(e, costs);
    if afterDeck.error != "" then afterDeck
    else
      var afterStair := steps.stair(afterDeck, costs);
      if afterStair.error != "" then afterStair
      else
        var afterRail := steps.rail(afterStair, costs);
        if afterRail.error != "" then afterRail
        else WithTotals(Remaining(afterRail, costs, steps))
  }

  /** What the handler does with a request. `Render` carries the page's
      estimate and the estimate the session holds afterwards; after
      `SaveAndRender` the session is whatever `saveEstimate` stores. */
  datatype Response =
    | Render(estimate: DeckEstimate, stored: DeckEstimate)
    | SaveAndRender(estimate: DeckEstimate)

  /** `estimateHandler` after the session has been read: `session` is the
      stored estimate, `customer` the stored customer, `now` the clock. A GET
      shows the stored estimate; a save needs a positive total and a customer
      first name; an accept needs an earlier save; anything else recalculates.
      The session's estimate is overwritten only by a recalculation that no
      calculator rejects; every other rendered page leaves it as it was. */
  function Handle(isPost: bool, session: DeckEstimate, customer: Customer, f: Form, costs: Costs, steps: Steps, now: int): (r: Response)
    ensures !isPost ==> r == Render(session.(customer := customer), session)
    ensures isPost && f.save == "true" ==>
      if session.totalCost > 0.0 && customer.firstName != ""
      then r == SaveAndRender(session.(customer := customer))
      else r == Render(Rejected(SaveIncomplete), session)
    ensures isPost && f.save != "true" && f.accept == "true" && session.saveDate != Zero ==>
      r == SaveAndRender(session.(customer := customer, acceptDate := At(now)))
    ensures r.SaveAndRender? ==> isPost && (f.save == "true" || session.saveDate != Zero)
    ensures isPost && f.save != "true" && (f.accept != "true" || session.saveDate == Zero) ==>
      match Prepare(session.(customer := customer), f)
      case Invalid(msg) => r == Render(Rejected(msg), session)
      case Valid(p) =>
        var priced := Price(p, costs, steps);
        r == Render(priced, if priced.error == "" then priced else session)
    ensures r.Render? && r.stored != session ==> r.stored == r.estimate && r.estimate.error == ""
  {
    var estimate := session.(customer := customer);
    if !isPost then Render(estimate, session)
    else if f.save == "true" then
      if estimate.totalCost > 0.0 && estimate.customer.firstName != "" then SaveAndRender(estimate)
      else Render(Rejected(SaveIncomplete), session)
    else if f.accept == "true" && estimate.saveDate != Zero then
      SaveAndRender(estimate.(acceptDate := At(now)))
    else
      match Prepare(estimate, f)
      case Invalid(msg) => Render(Rejected(msg), session)
      case Valid(p) =>
        var priced := Price(p, costs, steps);
        if priced.error == "" then Render(priced, priced) else Render(priced, session)
  }

  /** A recalculation that a calculator rejects leaves the earlier saved
      estimate in the session, so a following accept still accepts it: the
      page showed the error, but the accept stamps the stale estimate. */
  lemma StaleSaveAcceptedAfterRejectedRecalculation(
    session: DeckEstimate, customer: Customer, f: Form, g: Form, costs: Costs, now1: int, now2: int)
    requires session.saveDate != Zero
    requires f.save != "true" && f.accept != "true" && f.finish == ""
    requires Positive(f.length) && Positive(f.width) && NonNegative(f.height)
    requires f.material !in costs.deckMaterials
    requires g.save != "true" && g.accept == "true"
    ensures var steps := FreeFunctionSteps(Untouched, Untouched, Untouched);
      var r1 := Handle(true, session, customer, f, costs, steps, now1);
      && r1.Render? && r1.estimate.error == Deck.InvalidMaterial && r1.stored == session
      && Handle(true, r1.stored, customer, g, costs, steps, now2)
         == SaveAndRender(session.(customer := customer, acceptDate := At(now2)))
  {
    var steps := FreeFunctionSteps(Untouched, Untouched, Untouched);
    var prepared := Prepare(session.(customer := customer), f);
    assert prepared.Valid?;
    var p := prepared.estimate;
    assert p.material == f.material && p.error == "";
    assert DeckStep(p, costs).error == Deck.InvalidMaterial;
    assert Price(p, costs, steps).error == Deck.InvalidMaterial;
  }

  /** A rejected form yields an estimate with the message and no cost at all. */
  lemma RejectionHasNoCosts(isPost: bool, session: DeckEstimate, customer: Customer, f: Form, costs: Costs, steps: Steps, now: int)
    requires isPost && f.save != "true" && (f.accept != "true" || session.saveDate == Zero)
    requires !Positive(f.length) || !Positive(f.width) || !NonNegative(f.height)
    ensures var r := Handle(isPost, session, customer, f, costs, steps, now);
      && r.Render?
      && r.estimate.error in {LengthInvalid, WidthInvalid, HeightInvalid}
      && (!Positive(f.length) ==> r.estimate == Rejected(LengthInvalid))
      && (Positive(f.length) && !Positive(f.width) ==> r.estimate == Rejected(WidthInvalid))
      && (Positive(f.length) && Positive(f.width) ==> r.estimate == Rejected(HeightInvalid))
      && r.estimate.totalCost == 0.0 && r.estimate.subtotal == 0.0 && BilledLines(r.estimate) == 0.0
  {
  }

  // ----- The calculators with visible bodies, wired as free functions -----

  /** The deck step: `CalculateDeckCost` on the estimate's dimensions. */
  function DeckStep(e: DeckEstimate, costs: Costs): (r: DeckEstimate)
    ensures r == e.(error := r.error, deckCost := r.deckCost)
    ensures e.material !in costs.deckMaterials ==> r.error == Deck.InvalidMaterial && r.deckCost == e.deckCost
    ensures e.material in costs.deckMaterials && e.height >= 20.0 ==> r.error == Deck.HeightTooHigh && r.deckCost == e.deckCost
    ensures e.material in costs.deckMaterials && e.height < 20.0 ==>
      r.error == e.error && r.deckCost == e.length * e.width * costs.deckMaterials[e.material] * Deck.HeightMultiplier(e.height)
  {
    var p := Deck.CalculateDeckCost(e.length, e.width, e.height, e.material, costs);
    if p.Failed() then e.(error := p.err.value) else e.(deckCost := p.cost)
  }

  /** The stair step: `CalculateStairCost` at the deck material's rate (0 for
      an unknown material). */
  function StairStep(e: DeckEstimate, costs: Costs): (r: DeckEstimate)
    ensures r == e.(error := r.error, stairCost := r.stairCost)
    ensures 0.0 < e.stairWidth < 3.0 ==> r.error == Stairs.TooNarrow && r.stairCost == e.stairCost
    ensures !(0.0 < e.stairWidth < 3.0) ==>
      && r.error == e.error
      && r.stairCost == Stairs.CalculateStairCost(e.height, e.stairWidth, Rate(costs.deckMaterials, e.material)).cost
    ensures !(0.0 < e.stairWidth < 3.0) && e.material !in costs.deckMaterials ==>
      r.stairCost == Stairs.CalculateStairCost(e.height, e.stairWidth, 0.0).cost
  {
    var materialCost := Rate(costs.deckMaterials, e.material);
    var p := Stairs.CalculateStairCost(e.height, e.stairWidth, materialCost);
    if p.Failed() then e.(error := p.err.value) else e.(stairCost := p.cost)
  }

  /** The rail step: `CalculateRailCost` and the rail footage. */
  function RailStep(e: DeckEstimate, costs: Costs): (r: DeckEstimate)
    ensures r == e.(error := r.error, railCost := r.railCost, railFeet := r.railFeet)
    ensures e.railMaterial == "" && e.railInfill != "" ==>
      r.error == Rails.InfillWithoutMaterial && r.railCost == e.railCost && r.railFeet == e.railFeet
    ensures !(e.railMaterial == "" && e.railInfill != "") ==>
      && r.error == e.error
      && r.railCost == Rails.CalculateRailCost(e.length, e.width, e.railMaterial, e.railInfill, costs).cost
      && r.railFeet == Rails.ThreeSides(e.length, e.width)
  {
    var p := Rails.CalculateRailCost(e.length, e.width, e.railMaterial, e.railInfill, costs);
    if p.Failed() then e.(error := p.err.value)
    else e.(railCost := p.cost, railFeet := (2.0 * e.length) + e.width)
  }

  /** The demolition step: `CalculateDemoCost` on the deck area when chosen, else 0. */
  function DemoStep(e: DeckEstimate, costs: Costs): (r: DeckEstimate)
    ensures r == e.(demoCost := r.demoCost)
    ensures e.hasDemo ==> r.demoCost == e.length * e.width * Demo.DemoRate
    ensures !e.hasDemo ==> r.demoCost == 0.0
  {
    e.(demoCost := if e.hasDemo then Demo.CalculateDemoCost(e.length * e.width) else 0.0)
  }

  /** The fascia step: `CalculateFasciaCost` and its footage when chosen, else cost 0. */
  function FasciaStep(e: DeckEstimate, costs: Costs): (r: DeckEstimate)
    ensures r == e.(fasciaCost := r.fasciaCost, fasciaFeet := r.fasciaFeet)
    ensures e.hasFascia ==>
      r.fasciaCost == Rails.ThreeSides(e.length, e.width) * costs.fasciaCost && r.fasciaFeet == Rails.ThreeSides(e.length, e.width)
    ensures !e.hasFascia ==> r.fasciaCost == 0.0 && r.fasciaFeet == e.fasciaFeet
  {
    if e.hasFascia
    then e.(fasciaCost := Fascia.CalculateFasciaCost(e.length, e.width, costs), fasciaFeet := (2.0 * e.length) + e.width)
    else e.(fasciaCost := 0.0)
  }

  /** The pipeline built from the free functions; the stair-rail, stair-fascia
      and toe-kick calculators have no visible body and stay parameters. */
  function FreeFunctionSteps(stairRail: Step, stairFascia: Step, stairToeKick: Step): (r: Steps)
    ensures r.deck == DeckStep && r.stair == StairStep && r.rail == RailStep
    ensures r.stairRail == stairRail && r.stairFascia == stairFascia && r.stairToeKick == stairToeKick
    ensures r.demo == DemoStep && r.fascia == FasciaStep
  {
    Steps(DeckStep, StairStep, RailStep, stairRail, stairFascia, stairToeKick, DemoStep, FasciaStep)
  }

  /** With the free functions, the reported error is the first calculator
      error in deck, stair, rail order, whatever the other calculators do. */
  lemma FirstErrorWins(e: DeckEstimate, costs: Costs, stairRail: Step, stairFascia: Step, stairToeKick: Step)
    requires e.error == ""
    ensures var r := Price(e, costs, FreeFunctionSteps(stairRail, stairFascia, stairToeKick));
      && (e.material !in costs.deckMaterials ==> r.error == Deck.InvalidMaterial)
      && (e.material in costs.deckMaterials && e.height >= 20.0 ==> r.error == Deck.HeightTooHigh)
      && (e.material in costs.deckMaterials && e.height < 20.0 && 0.0 < e.stairWidth < 3.0 ==> r.error == Stairs.TooNarrow)
      && ((e.material in costs.deckMaterials && e.height < 20.0 && !(0.0 < e.stairWidth < 3.0)
           && e.railMaterial == "" && e.railInfill != "") ==> r.error == Rails.InfillWithoutMaterial)
  {
    var steps := FreeFunctionSteps(stairRail, stairFascia, stairToeKick);
    var r := Price(e, costs, steps);
    var d := DeckStep(e, costs);
    if d.error != "" {
      assert r.error == d.error;
    } else {
      var s := StairStep(d, costs);
      if s.error != "" {
        assert r.error == s.error;
      } else {
        var l := RailStep(s, costs);
        if l.error != "" {
          assert r.error == l.error;
        }
      }
    }
  }

  /** A calculator the handler calls but whose body is not modelled, taken to
      leave the estimate as it is. */
  function Untouched(e: DeckEstimate, costs: Costs): DeckEstimate {
    e
  }

  /** With the free functions (and untouched stair-rail, stair-fascia and
      toe-kick lines), a configuration no calculator rejects is priced line by
      line: each line item is its calculator's cost, the deck area is kept,
      and the total is the billed lines plus 8.7%. */
  lemma {:induction false} FreePipelinePrices(e: DeckEstimate, costs: Costs)
    requires e.error == ""
    requires e.material in costs.deckMaterials && e.height < 20.0
    requires !(0.0 < e.stairWidth < 3.0)
    requires !(e.railMaterial == "" && e.railInfill != "")
    ensures var r := Price(e, costs, FreeFunctionSteps(Untouched, Untouched, Untouched));
      && r.error == ""
      && r.deckArea == e.deckArea
      && r.deckCost == Deck.CalculateDeckCost(e.length, e.width, e.height, e.material, costs).cost
      && r.stairCost == Stairs.CalculateStairCost(e.height, e.stairWidth, costs.deckMaterials[e.material]).cost
      && r.railCost == Rails.CalculateRailCost(e.length, e.width, e.railMaterial, e.railInfill, costs).cost
      && r.railFeet == Rails.ThreeSides(e.length, e.width)
      && (e.hasDemo ==> r.demoCost == Demo.CalculateDemoCost(e.length * e.width))
      && (!e.hasDemo ==> r.demoCost == 0.0)
      && (e.hasFascia ==> r.fasciaCost == Fascia.CalculateFasciaCost(e.length, e.width, costs))
      && (!e.hasFascia ==> r.fasciaCost == 0.0)
      && r.totalCost == (r.deckCost + r.railCost + r.stairCost + r.demoCost + r.fasciaCost
                         + e.stairRailCost + e.stairFasciaCost) * 1.087
  {
    FreePipelineFixedLines(e, costs);
    FreePipelineDemoLine(e, costs);
    FreePipelineFasciaLine(e, costs);
    FreePipelineTotal(e, costs);
  }

  // The two halves of the line-by-line pricing, proved apart.

  lemma FreePipelineFixedLines(e: DeckEstimate, costs: Costs)
    requires e.error == ""
    requires e.material in costs.deckMaterials && e.height < 20.0
    requires !(0.0 < e.stairWidth < 3.0)
    requires !(e.railMaterial == "" && e.railInfill != "")
    ensures var r := Price(e, costs, FreeFunctionSteps(Untouched, Untouched, Untouched));
      && r.error == ""
      && r.deckArea == e.deckArea
      && r.deckCost == Deck.CalculateDeckCost(e.length, e.width, e.height, e.material, costs).cost
      && r.stairCost == Stairs.CalculateStairCost(e.height, e.stairWidth, costs.deckMaterials[e.material]).cost
      && r.railCost == Rails.CalculateRailCost(e.length, e.width, e.railMaterial, e.railInfill, costs).cost
      && r.railFeet == Rails.ThreeSides(e.length, e.width)
  {
    var steps := FreeFunctionSteps(Untouched, Untouched, Untouched);
    var l := RailStep(StairStep(DeckStep(e, costs), costs), costs);
    PricedThroughRail(e, costs);
    PriceWhenNothingRejected(e, costs, steps);
    RemainingFreeLines(l, costs);
    TotalsKeepLines(Remaining(l, costs, steps));
  }

  lemma FreePipelineDemoLine(e: DeckEstimate, costs: Costs)
    requires e.error == ""
    requires e.material in costs.deckMaterials && e.height < 20.0
    requires !(0.0 < e.stairWidth < 3.0)
    requires !(e.railMaterial == "" && e.railInfill != "")
    ensures var r := Price(e, costs, FreeFunctionSteps(Untouched, Untouched, Untouched));
      && (e.hasDemo ==> r.demoCost == Demo.CalculateDemoCost(e.length * e.width))
      && (!e.hasDemo ==> r.demoCost == 0.0)
  {
    var steps := FreeFunctionSteps(Untouched, Untouched, Untouched);
    var l := RailStep(StairStep(DeckStep(e, costs), costs), costs);
    ThroughRailKeeps(e, costs);
    PriceWhenNothingRejected(e, costs, steps);
    RemainingFreeLines(l, costs);
    TotalsKeepLines(Remaining(l, costs, steps));
    assert l.length * l.width == e.length * e.width;
  }

  lemma FreePipelineFasciaLine(e: DeckEstimate, costs: Costs)
    requires e.error == ""
    requires e.material in costs.deckMaterials && e.height < 20.0
    requires !(0.0 < e.stairWidth < 3.0)
    requires !(e.railMaterial == "" && e.railInfill != "")
    ensures var r := Price(e, costs, FreeFunctionSteps(Untouched, Untouched, Untouched));
      && (e.hasFascia ==> r.fasciaCost == Fascia.CalculateFasciaCost(e.length, e.width, costs))
      && (!e.hasFascia ==> r.fasciaCost == 0.0)
  {
    var steps := FreeFunctionSteps(Untouched, Untouched, Untouched);
    var l := RailStep(StairStep(DeckStep(e, costs), costs), costs);
    ThroughRailKeeps(e, costs);
    PriceWhenNothingRejected(e, costs, steps);
    RemainingFreeLines(l, costs);
    TotalsKeepLines(Remaining(l, costs, steps));
  }

  lemma FreePipelineTotal(e: DeckEstimate, costs: Costs)
    requires e.error == ""
    requires e.material in costs.deckMaterials && e.height < 20.0
    requires !(0.0 < e.stairWidth < 3.0)
    requires !(e.railMaterial == "" && e.railInfill != "")
    ensures var r := Price(e, costs, FreeFunctionSteps(Untouched, Untouched, Untouched));
      r.totalCost == (r.deckCost + r.railCost + r.stairCost + r.demoCost + r.fasciaCost
                      + e.stairRailCost + e.stairFasciaCost) * 1.087
  {
    var steps := FreeFunctionSteps(Untouched, Untouched, Untouched);
    var l := RailStep(StairStep(DeckStep(e, costs), costs), costs);
    ThroughRailKeeps(e, costs);
    PriceWhenNothingRejected(e, costs, steps);
    RemainingFreeLines(l, costs);
    var x := Remaining(l, costs, steps);
    TotalsKeepLines(x);
    var r := Price(e, costs, steps);
    assert r.stairRailCost == e.stairRailCost && r.stairFasciaCost == e.stairFasciaCost;
    TotalIsBilledLines(r);
  }

  /** A totalled estimate bills its line items plus tax. */
  lemma TotalIsBilledLines(r: DeckEstimate)
    requires r.subtotal == BilledLines(r) && r.totalCost == r.subtotal * 1.087
    ensures r.totalCost == (r.deckCost + r.railCost + r.stairCost + r.demoCost + r.fasciaCost
                            + r.stairRailCost + r.stairFasciaCost) * 1.087
  {
  }

  /** The demolition and fascia steps fill their own lines; with untouched
      stair-rail, stair-fascia and toe-kick steps nothing else changes. */
  lemma RemainingFreeLines(l: DeckEstimate, costs: Costs)
    ensures var x := Remaining(l, costs, FreeFunctionSteps(Untouched, Untouched, Untouched));
      && x.deckCost == l.deckCost && x.railCost == l.railCost && x.stairCost == l.stairCost
      && x.stairRailCost == l.stairRailCost && x.stairFasciaCost == l.stairFasciaCost
      && x.deckArea == l.deckArea && x.railFeet == l.railFeet && x.error == l.error
      && x.demoCost == (if l.hasDemo then Demo.CalculateDemoCost(l.length * l.width) else 0.0)
      && x.fasciaCost == (if l.hasFascia then Fascia.CalculateFasciaCost(l.length, l.width, costs) else 0.0)
  {
    var steps := FreeFunctionSteps(Untouched, Untouched, Untouched);
    assert Remaining(l, costs, steps) == FasciaStep(DemoStep(l, costs), costs);
  }

  /** When no step rejects, the priced estimate is the totalled output of the
      remaining steps. */
  lemma PriceWhenNothingRejected(e: DeckEstimate, costs: Costs, steps: Steps)
    requires steps.deck(e, costs).error == ""
    requires steps.stair(steps.deck(e, costs), costs).error == ""
    requires steps.rail(steps.stair(steps.deck(e, costs), costs), costs).error == ""
    ensures Price(e, costs, steps) == WithTotals(Remaining(steps.rail(steps.stair(steps.deck(e, costs), costs), costs), costs, steps))
  {
  }

  /** Totalling keeps every line item and bills them plus tax. */
  lemma TotalsKeepLines(x: DeckEstimate)
    ensures var r := WithTotals(x);
      && r.deckCost == x.deckCost && r.railCost == x.railCost && r.stairCost == x.stairCost
      && r.demoCost == x.demoCost && r.fasciaCost == x.fasciaCost
      && r.stairRailCost == x.stairRailCost && r.stairFasciaCost == x.stairFasciaCost
      && r.deckArea == x.deckArea && r.railFeet == x.railFeet && r.error == x.error
      && r.totalCost == (x.deckCost + x.railCost + x.stairCost + x.demoCost + x.fasciaCost
                         + x.stairRailCost + x.stairFasciaCost) * 1.087
  {
  }

  /** The fields the deck, stair and rail steps leave alone when none of
      them rejects. */
  lemma ThroughRailKeeps(e: DeckEstimate, costs: Costs)
    requires e.error == ""
    requires e.material in costs.deckMaterials && e.height < 20.0
    requires !(0.0 < e.stairWidth < 3.0)
    requires !(e.railMaterial == "" && e.railInfill != "")
    ensures var d := DeckStep(e, costs); var s := StairStep(d, costs);
      && d.error == "" && s.error == "" && RailStep(s, costs).error == ""
    ensures var l := RailStep(StairStep(DeckStep(e, costs), costs), costs);
      && l.length == e.length && l.width == e.width
      && l.hasDemo == e.hasDemo && l.hasFascia == e.hasFascia
      && l.stairRailCost == e.stairRailCost && l.stairFasciaCost == e.stairFasciaCost
  {
    var d := DeckStep(e, costs);
    var s := StairStep(d, costs);
  }

  /** The line items after the deck, stair and rail steps of a configuration
      none of them rejects. */
  lemma PricedThroughRail(e: DeckEstimate, costs: Costs)
    requires e.error == ""
    requires e.material in costs.deckMaterials && e.height < 20.0
    requires !(0.0 < e.stairWidth < 3.0)
    requires !(e.railMaterial == "" && e.railInfill != "")
    ensures var l := RailStep(StairStep(DeckStep(e, costs), costs), costs);
      && l.error == ""
      && l.length == e.length && l.width == e.width && l.deckArea == e.deckArea
      && l.hasDemo == e.hasDemo && l.hasFascia == e.hasFascia
      && l.stairRailCost == e.stairRailCost && l.stairFasciaCost == e.stairFasciaCost
      && l.deckCost == Deck.CalculateDeckCost(e.length, e.width, e.height, e.material, costs).cost
      && l.stairCost == Stairs.CalculateStairCost(e.height, e.stairWidth, costs.deckMaterials[e.material]).cost
      && l.railCost == Rails.CalculateRailCost(e.length, e.width, e.railMaterial, e.railInfill, costs).cost
      && l.railFeet == Rails.ThreeSides(e.length, e.width)
  {
    var d := DeckStep(e, costs);
    var s := StairStep(d, costs);
  }

  /** The scenario form: a 20 x 12 ft cedar deck, 3 ft high, nothing else chosen. */
  const CedarForm := Form("", "", Some(20.0), Some(12.0), Some(3.0), None, None, "", "cedar", "", "", "", "", "", "", "", "")

  /** Reading the scenario form into a fresh session. */
  lemma CedarFormPrepared()
    ensures Prepare(Blank, CedarForm).Valid?
    ensures var e := Prepare(Blank, CedarForm).estimate;
      && e.error == "" && e.material == "cedar" && e.length == 20.0 && e.width == 12.0 && e.height == 3.0
      && e.deckArea == 240.0 && e.stairWidth == 0.0 && e.railMaterial == "" && e.railInfill == ""
      && !e.hasDemo && !e.hasFascia && e.stairRailCost == 0.0 && e.stairFasciaCost == 0.0
  {
    var read := ReadForm(Blank, CedarForm);
    assert read.Valid?;
    assert read.estimate.stairRailCost == 0.0 && read.estimate.stairFasciaCost == 0.0;
    assert ApplyFinish(read.estimate, "", "") == read.estimate;
  }

  /** The scenario posted against a fresh session: deck 9600, subtotal 9600,
      tax 835.20, total 10435.20. */
  lemma CedarDeckScenario(costs: Costs, now: int)
    requires costs.deckMaterials == map["cedar" := 40.0]
    requires "" !in costs.railMaterials && "" !in costs.railInfills
    ensures var r := Handle(true, Blank, NoCustomer, CedarForm, costs, FreeFunctionSteps(Untouched, Untouched, Untouched), now);
      && r.Render?
      && r.estimate.error == ""
      && r.estimate.deckArea == 240.0
      && r.estimate.deckCost == 9600.0
      && r.estimate.subtotal == 9600.0
      && r.estimate.salesTax == 835.2
      && r.estimate.totalCost == 10435.2
      && r.stored == r.estimate
  {
    CedarHandled(costs, now);
    CedarFormPrepared();
    CedarPriced(Prepare(Blank, CedarForm).estimate, costs);
  }

  /** The scenario POST goes straight to pricing. */
  lemma CedarHandled(costs: Costs, now: int)
    ensures Prepare(Blank, CedarForm).Valid?
    ensures var steps := FreeFunctionSteps(Untouched, Untouched, Untouched);
      var priced := Price(Prepare(Blank, CedarForm).estimate, costs, steps);
      Handle(true, Blank, NoCustomer, CedarForm, costs, steps, now) == Render(priced, if priced.error == "" then priced else Blank)
  {
    CedarFormPrepared();
    assert Blank.(customer := NoCustomer) == Blank;
  }

  /** An estimate shaped like the prepared scenario, priced with the free
      functions. */
  lemma CedarPriced(e: DeckEstimate, costs: Costs)
    requires e.error == "" && e.material == "cedar" && e.length == 20.0 && e.width == 12.0 && e.height == 3.0
    requires e.deckArea == 240.0 && e.stairWidth == 0.0 && e.railMaterial == "" && e.railInfill == ""
    requires !e.hasDemo && !e.hasFascia && e.stairRailCost == 0.0 && e.stairFasciaCost == 0.0
    requires costs.deckMaterials == map["cedar" := 40.0]
    requires "" !in costs.railMaterials && "" !in costs.railInfills
    ensures var r := Price(e, costs, FreeFunctionSteps(Untouched, Untouched, Untouched));
      && r.error == ""
      && r.deckArea == 240.0
      && r.deckCost == 9600.0
      && r.subtotal == 9600.0
      && r.salesTax == 835.2
      && r.totalCost == 10435.2
  {
    var r := Price(e, costs, FreeFunctionSteps(Untouched, Untouched, Untouched));
    FreePipelinePrices(e, costs);
    Deck.DeckScenario(costs);
    Rails.RailNothingChosen(20.0, 12.0, costs);
    assert r.deckCost == 9600.0 && r.stairCost == 0.0 && r.railCost == 0.0;
    assert r.demoCost == 0.0 && r.fasciaCost == 0.0;
    assert r.subtotal == 9600.0;
  }
}

=== FILE: fascia.dfy ===
/** Fascia cost (fascia.go): the rail footage again, at the fascia rate. */
module Fascia {
  import opened Basics
  import opened RateTable
  import Rails

  /** `CalculateFasciaCost`: fascia covers the same three sides the rails
      run along, at `costs.fasciaCost` per linear foot. */
  function CalculateFasciaCost(length: real, width: real, costs: Costs): (r: real)
    ensures r == Rails.ThreeSides(length, width) * costs.fasciaCost
  {
    var perimeter := (2.0 * length) + width;
    perimeter * costs.fasciaCost
  }

  /** A zero fascia rate costs nothing; non-negative inputs cost a
      non-negative amount. */
  lemma {:induction false} FasciaCostSign(length: real, width: real, costs: Costs)
    ensures costs.fasciaCost == 0.0 ==> CalculateFasciaCost(length, width, costs) == 0.0
    ensures length >= 0.0 && width >= 0.0 && costs.fasciaCost >= 0.0 ==> CalculateFasciaCost(length, width, costs) >= 0.0
  {
    var p := Rails.ThreeSides(length, width);
    if length >= 0.0 && width >= 0.0 && costs.fasciaCost >= 0.0 {
      assert p >= 0.0;
      assert p * costs.fasciaCost >= 0.0;
    }
  }

  /** With the rail material rate equal to the fascia rate and no infill rate,
      fascia and rails cost the same: both are priced on the same footage. */
  lemma FasciaMatchesRailFootage(length: real, width: real, railMaterial: string, costs: Costs)
    requires railMaterial in costs.railMaterials && costs.railMaterials[railMaterial] == costs.fasciaCost
    requires "" !in costs.railInfills
    ensures Rails.CalculateRailCost(length, width, railMaterial, "", costs) == Ok(CalculateFasciaCost(length, width, costs))
  {
  }
}

=== FILE: homeowner.dfy ===
/** The home page dispatch of `ownerHandler` (homeowner.go): a path that,
    lower-cased, starts with one of the city-page service prefixes is handed
    to the city landing page; every other path gets the homeowner page. */
module Homeowner {
  import opened Text
  import CitiesSeo

  /** The service prefixes tested, in the order the handler tests them. */
  const CityPrefixes: seq<string> := [
    "/deck-builders-",
    "/patio-cover-",
    "/trex-deck-",
    "/timbertech-deck-",
    "/composite-decking-",
    "/outdoor-kitchen-builders-",
    "/pergola-builders-",
    "/outdoor-living-"
  ]

  datatype Page = CityPage | HomeownerPage

  /** The dispatch, as the chain of `strings.HasPrefix` tests on the
      lower-cased path. */
  function Route(path: string): (page: Page)
    ensures page == CityPage <==>
      exists k :: 0 <= k < |CityPrefixes| && HasPrefix(ToLower(path), CityPrefixes[k])
  {
    var p := ToLower(path);
    PrefixChain(p);
    if HasPrefix(p, "/deck-builders-")
      || HasPrefix(p, "/patio-cover-")
      || HasPrefix(p, "/trex-deck-")
      || HasPrefix(p, "/timbertech-deck-")
      || HasPrefix(p, "/composite-decking-")
      || HasPrefix(p, "/outdoor-kitchen-builders-")
      || HasPrefix(p, "/pergola-builders-")
      || HasPrefix(p, "/outdoor-living-")
    then CityPage
    else HomeownerPage
  }

  /** The chain of tests is a search of the prefix table. */
  lemma PrefixChain(p: string)
    ensures (exists k :: 0 <= k < |CityPrefixes| && HasPrefix(p, CityPrefixes[k])) <==>
      (HasPrefix(p, "/deck-builders-")
      || HasPrefix(p, "/patio-cover-")
      || HasPrefix(p, "/trex-deck-")
      || HasPrefix(p, "/timbertech-deck-")
      || HasPrefix(p, "/composite-decking-")
      || HasPrefix(p, "/outdoor-kitchen-builders-")
      || HasPrefix(p, "/pergola-builders-")
      || HasPrefix(p, "/outdoor-living-"))
  {
    if exists k :: 0 <= k < |CityPrefixes| && HasPrefix(p, CityPrefixes[k]) {
      var k :| 0 <= k < |CityPrefixes| && HasPrefix(p, CityPrefixes[k]);
      if k == 0 {} else if k == 1 {} else if k == 2 {} else if k == 3 {}
      else if k == 4 {} else if k == 5 {} else if k == 6 {} else {}
    }
    if HasPrefix(p, "/deck-builders-") { assert HasPrefix(p, CityPrefixes[0]); }
    if HasPrefix(p, "/patio-cover-") { assert HasPrefix(p, CityPrefixes[1]); }
    if HasPrefix(p, "/trex-deck-") { assert HasPrefix(p, CityPrefixes[2]); }
    if HasPrefix(p, "/timbertech-deck-") { assert HasPrefix(p, CityPrefixes[3]); }
    if HasPrefix(p, "/composite-decking-") { assert HasPrefix(p, CityPrefixes[4]); }
    if HasPrefix(p, "/outdoor-kitchen-builders-") { assert HasPrefix(p, CityPrefixes[5]); }
    if HasPrefix(p, "/pergola-builders-") { assert HasPrefix(p, CityPrefixes[6]); }
    if HasPrefix(p, "/outdoor-living-") { assert HasPrefix(p, CityPrefixes[7]); }
  }

  /** The dispatch ignores letter case, as far as lowering reaches ASCII. */
  lemma RouteIgnoresCase(path: string)
    ensures Route(ToLower(path)) == Route(path)
  {
    ToLowerIdempotent(path);
  }

  /** A prefix of a string is a prefix of every extension of it. */
  lemma PrefixOfExtension(s: string, t: string, prefix: string)
    requires HasPrefix(s, prefix)
    ensures HasPrefix(s + t, prefix)
  {
    assert (s + t)[..|prefix|] == s[..|prefix|];
  }

  /** The i-th prefix opens the page path of the i-th served service. */
  lemma PrefixMatchesService(i: int)
    requires 0 <= i < |CityPrefixes|
    ensures |CitiesSeo.ServiceSlugs| == |CityPrefixes|
    ensures HasPrefix("/" + CitiesSeo.ServiceSlugs[i] + "-", CityPrefixes[i])
  {
    if i == 0 {
      DeckBuildersPrefix();
    } else if i == 1 {
      PatioCoverPrefix();
    } else if i == 2 {
      TrexPrefix();
    } else if i == 3 {
      TimbertechPrefix();
    } else if i == 4 {
      CompositeDeckingPrefix();
    } else if i == 5 {
      OutdoorKitchenPrefix();
    } else if i == 6 {
      PergolaPrefix();
    } else {
      OutdoorLivingPrefix();
    }
  }

  // One table row per lemma, each a small literal computation.

  lemma DeckBuildersPrefix()
    ensures HasPrefix("/" + CitiesSeo.ServiceSlugs[0] + "-", CityPrefixes[0])
  {
  }

  lemma PatioCoverPrefix()
    ensures HasPrefix("/" + CitiesSeo.ServiceSlugs[1] + "-", CityPrefixes[1])
  {
  }

  lemma TrexPrefix()
    ensures HasPrefix("/" + CitiesSeo.ServiceSlugs[2] + "-", CityPrefixes[2])
  {
  }

  lemma TimbertechPrefix()
    ensures HasPrefix("/" + CitiesSeo.ServiceSlugs[3] + "-", CityPrefixes[3])
  {
  }

  lemma CompositeDeckingPrefix()
    ensures HasPrefix("/" + CitiesSeo.ServiceSlugs[4] + "-", CityPrefixes[4])
  {
  }

  lemma OutdoorKitchenPrefix()
    ensures HasPrefix("/" + CitiesSeo.ServiceSlugs[5] + "-", CityPrefixes[5])
  {
  }

  lemma PergolaPrefix()
    ensures HasPrefix("/" + CitiesSeo.ServiceSlugs[6] + "-", CityPrefixes[6])
  {
  }

  lemma OutdoorLivingPrefix()
    ensures HasPrefix("/" + CitiesSeo.ServiceSlugs[7] + "-", CityPrefixes[7])
  {
  }

  /** A path that holds no letter lowering to ASCII is routed on as it is. */
  lemma LowerPathRoute(path: string, k: int)
    requires NoUpper(path)
    requires 0 <= k < |CityPrefixes| && HasPrefix(path, CityPrefixes[k])
    ensures Route(path) == CityPage
  {
    ToLowerOfLower(path);
  }

  /** Every generated city page reaches the city handler. */
  lemma GeneratedSlugsRouteToCity(i: int, j: int)
    requires 0 <= i < |CitiesSeo.ServiceSlugs| && 0 <= j < |CitiesSeo.Cities|
    ensures Route("/" + CitiesSeo.CitySlug(CitiesSeo.ServiceSlugs[i], CitiesSeo.Cities[j])) == CityPage
  {
    var s, c := CitiesSeo.ServiceSlugs[i], CitiesSeo.Cities[j];
    var head := "/" + s + "-";
    var path := "/" + CitiesSeo.CitySlug(s, c);
    PrefixMatchesService(i);
    assert path == head + (c.slug + "-" + c.state);
    PrefixOfExtension(head, c.slug + "-" + c.state, CityPrefixes[i]);
    CitiesSeo.ServiceSlugLowerCase(i);
    CitiesSeo.CitiesLowerCase(j);
    NoUpperAppend("/", s);
    NoUpperAppend("/" + s, "-");
    NoUpperAppend("/" + s + "-", c.slug);
    NoUpperAppend("/" + s + "-" + c.slug, "-");
    NoUpperAppend("/" + s + "-" + c.slug + "-", c.state);
    assert path == "/" + s + "-" + c.slug + "-" + c.state;
    LowerPathRoute(path, i);
  }

  /** Lowering is Unicode-wide: a dotted capital I inside the service name
      becomes 'i', so this path still reaches the deck-builders city page. */
  lemma DottedCapitalIRoutesToCity()
    ensures Route("/deck-bu" + [DottedCapitalI] + "lders-woodland-wa") == CityPage
  {
    var path := "/deck-bu" + [DottedCapitalI] + "lders-woodland-wa";
    var lowered := ToLower(path);
    assert lowered[..|CityPrefixes[0]|] == CityPrefixes[0] by {
      forall i | 0 <= i < |CityPrefixes[0]|
        ensures lowered[i] == CityPrefixes[0][i]
      {
      }
    }
    assert HasPrefix(lowered, CityPrefixes[0]);
  }
}

=== FILE: login.dfy ===
/** Password login and signup (login.go): the placeholder credential check
    `authN`, the signup field validation and the return-URL handling of the
    login page. Sessions are passed in and out as values. */
module Login {
  import opened Basics
  import opened Text

  const MissingUserName := "missing user name"
  const IncorrectPassword := "incorrect password"
  const LoginFailed := "Login failed.  Try again"
  const SignupInvalid := "Please fill all fields correctly and ensure passwords match (8+ chars)"
  const CreateUserFailed := "Create user DB failure."
  const SignupWelcome := "Welcome to Columbia Outdoor!"

  /** The session's record of who is signed in (login.go `UserAuth`). */
  datatype UserAuth = UserAuth(
    id: int,
    isAuthenticated: bool,
    email: string,
    name: string,
    authType: string,
    role: string,
    message: string,
    title: string,
    metaDesc: string,
    subtitle: string,
    rurl: string)

  /** `authN`: `None` is the nil error. An empty email is refused first; the
      placeholder check then accepts exactly a password equal to the email. */
  function AuthN(email: string, password: string): (err: Option<string>)
    ensures err.None? <==> email != "" && password == email
    ensures email == "" ==> err == Some(MissingUserName)
    ensures email != "" && password != email ==> err == Some(IncorrectPassword)
  {
    if email == "" then Some(MissingUserName)
    else if email == password then None
    else Some(IncorrectPassword)
  }

  /** Go's `len` on a string: the number of bytes of its UTF-8 encoding. */
  function Utf8Len(s: string): (n: nat)
    ensures n >= |s|
    ensures n <= 4 * |s|
    decreases |s|
  {
    if s == [] then 0
    else
      var c := s[0] as int;
      (if c < 0x80 then 1 else if c < 0x800 then 2 else if c < 0x10000 then 3 else 4) + Utf8Len(s[1..])
  }

  /** Outcome of the signup field check: the message shown on rejection, or
      the trimmed name and email and the password handed to `createUser`. */
  datatype SignupCheck = Rejected(message: string) | Accepted(name: string, email: string, password: string)

  /** The signup field check. The empty-password test at login.go:193 is
      subsumed by the length test; the contract states the condition without
      it. */
  function CheckSignup(name: string, email: string, pass1: string, pass2: string): (r: SignupCheck)
    ensures r.Accepted? <==>
      TrimSpace(name) != "" && TrimSpace(email) != "" && pass1 == pass2 && Utf8Len(pass1) >= 8
    ensures r.Rejected? ==> r.message == SignupInvalid
    ensures r.Accepted? ==> r.name == TrimSpace(name) && r.email == TrimSpace(email) && r.password == pass1
  {
    var n := TrimSpace(name);
    var e := TrimSpace(email);
    if n == "" || e == "" || pass1 == "" || pass1 != pass2 || Utf8Len(pass1) < 8 then Rejected(SignupInvalid)
    else Accepted(n, e, pass1)
  }

  /** A name or email made of white space only is refused, as is a pair of
      passwords that differ. */
  lemma {:induction false} SignupRefusesBlankOrMismatch(name: string, email: string, pass1: string, pass2: string)
    ensures (forall i :: 0 <= i < |name| ==> IsSpace(name[i])) ==> CheckSignup(name, email, pass1, pass2).Rejected?
    ensures (forall i :: 0 <= i < |email| ==> IsSpace(email[i])) ==> CheckSignup(name, email, pass1, pass2).Rejected?
    ensures pass1 != pass2 ==> CheckSignup(name, email, pass1, pass2).Rejected?
  {
    TrimSpaceEmpty(name);
    TrimSpaceEmpty(email);
  }

  /** The length limit counts bytes: three three-byte characters make a
      password long enough, though it is only three characters long. The name
      and email are any that neither start nor end with white space. */
  lemma SignupCountsBytes(name: string, email: string, pass: string)
    requires name != [] && !IsSpace(name[0]) && !IsSpace(name[|name| - 1])
    requires email != [] && !IsSpace(email[0]) && !IsSpace(email[|email| - 1])
    requires pass == "\U{20AC}\U{20AC}\U{20AC}"
    ensures |pass| == 3 && Utf8Len(pass) == 9
    ensures CheckSignup(name, email, pass, pass) == Accepted(name, email, pass)
  {
    TrimSpaceUnchanged(name);
    TrimSpaceUnchanged(email);
    ThreeEuroSigns(pass);
  }

  lemma ThreeEuroSigns(pass: string)
    requires pass == "\U{20AC}\U{20AC}\U{20AC}"
    ensures |pass| == 3 && Utf8Len(pass) == 9
  {
    assert Utf8Len(pass[2..]) == 3;
    assert Utf8Len(pass[1..]) == 6;
  }

  /** The signup POST: a rejected form or a failed `createUser` (whose
      result, `None` for an error, is a parameter) sends the browser back to
      "/signup" with a message; otherwise the session is signed in as a
      homeowner and the browser goes to "/". */
  function SignupPost(auth: UserAuth, name: string, email: string, pass1: string, pass2: string, created: Option<int>): (r: (UserAuth, string))
    ensures r.1 == "/" <==> CheckSignup(name, email, pass1, pass2).Accepted? && created.Some?
    ensures r.1 != "/" ==> r.1 == "/signup" && r.0 == auth.(title := "Signup", message := r.0.message)
    ensures r.0.isAuthenticated <==> r.1 == "/" || auth.isAuthenticated
    ensures r.1 != "/" ==>
      r.0.message == (if CheckSignup(name, email, pass1, pass2).Rejected? then SignupInvalid else CreateUserFailed)
    ensures r.1 == "/" ==>
      && r.0.email == TrimSpace(email) && r.0.name == TrimSpace(name)
      && r.0.id == created.value && r.0.role == "homeowner" && r.0.authType == "password"
      && r.0.message == SignupWelcome
      && r.0.(id := auth.id, authType := auth.authType, role := auth.role, email := auth.email,
              isAuthenticated := auth.isAuthenticated, message := auth.message, name := auth.name,
              title := auth.title) == auth
  {
    var signup := auth.(title := "Signup");
    match CheckSignup(name, email, pass1, pass2)
    case Rejected(msg) => (signup.(message := msg), "/signup")
    case Accepted(n, e, _) =>
      match created
      case None => (signup.(message := CreateUserFailed), "/signup")
      case Some(uid) =>
        (signup.(id := uid, authType := "password", role := "homeowner", email := e,
                 isAuthenticated := true, message := SignupWelcome, name := n), "/")
  }

  /** An empty return URL means the home page. */
  function OrHome(rurl: string): (target: string)
    ensures target != ""
    ensures rurl != "" ==> target == rurl
    ensures rurl == "" ==> target == "/"
  {
    if rurl == "" then "/" else rurl
  }

  /** What the login page does: sign out, redirect a signed-in session to its
      stored return URL, or show the login form with the return URL stored. */
  datatype LoginResult =
    | SignedOut
    | Redirected(auth: UserAuth, target: string)
    | ShowForm(auth: UserAuth)

  /** The session after the optional POST of the login page: a GET leaves it
      alone, a POST that fails `authN` only records the failure message, and
      a passing POST signs the posted email in with a welcome message. */
  function AfterPost(isPost: bool, email: string, password: string, auth: UserAuth): (a: UserAuth)
    ensures !isPost ==> a == auth
    ensures isPost && AuthN(email, password).Some? ==> a == auth.(message := LoginFailed)
    ensures isPost && AuthN(email, password).None? ==>
      a == auth.(email := email, isAuthenticated := true, message := "Welcome " + email)
    ensures a.rurl == auth.rurl && a.title == auth.title
  {
    if !isPost then auth
    else if AuthN(email, password).Some? then auth.(message := LoginFailed)
    else auth.(email := email, isAuthenticated := true, message := "Welcome " + email)
  }

  /** `loginHandler`. A POST first runs `authN` and records the outcome; then
      `option=signout` deletes the session and goes home, a signed-in session
      is sent to its stored return URL, and anyone else sees the form with
      the query's return URL stored. */
  function LoginHandler(isPost: bool, email: string, password: string, option: string, rurl: string, auth: UserAuth): (r: LoginResult)
    ensures option == "signout" <==> r.SignedOut?
    ensures option != "signout" ==>
      (r.Redirected? <==> auth.isAuthenticated || (isPost && AuthN(email, password).None?))
    ensures r.Redirected? ==> r.target != "" && r.target == OrHome(r.auth.rurl) && r.auth.isAuthenticated
    ensures r.Redirected? ==> r.auth == AfterPost(isPost, email, password, auth) && r.target == OrHome(auth.rurl)
    ensures r.ShowForm? ==> r.auth == AfterPost(isPost, email, password, auth).(title := "Login", rurl := OrHome(rurl))
    ensures r.ShowForm? ==>
      && r.auth.rurl != "" && (rurl != "" ==> r.auth.rurl == rurl)
      && r.auth.rurl == OrHome(rurl)
      && r.auth.title == "Login" && !r.auth.isAuthenticated
    ensures isPost && AuthN(email, password).Some? && !r.SignedOut? ==>
      r.auth.isAuthenticated == auth.isAuthenticated && r.auth.email == auth.email && r.auth.message == LoginFailed
  {
    var afterPost := AfterPost(isPost, email, password, auth);
    if option == "signout" then SignedOut
    else if afterPost.isAuthenticated then Redirected(afterPost, OrHome(afterPost.rurl))
    else ShowForm(afterPost.(title := "Login", rurl := OrHome(rurl)))
  }

  /** A correct POST signs the session in, whatever it held before. */
  lemma LoginWithCorrectPassword(email: string, option: string, rurl: string, auth: UserAuth)
    requires email != "" && option != "signout"
    ensures var r := LoginHandler(true, email, email, option, rurl, auth);
      r.Redirected? && r.auth.email == email && r.auth.message == "Welcome " + email
  {
  }

  /** The return URL survives the login: a visit to the form with `rurl=u`
      stores `u`, and a correct POST from that session is sent to `u`. */
  lemma ReturnUrlRoundTrip(u: string, email: string, auth: UserAuth)
    requires u != "" && email != "" && !auth.isAuthenticated
    ensures LoginHandler(false, "", "", "", u, auth).ShowForm?
    ensures var stored := LoginHandler(false, "", "", "", u, auth).auth;
      LoginHandler(true, email, email, "", "", stored) == Redirected(stored.(email := email, isAuthenticated := true, message := "Welcome " + email), u)
  {
  }
}

=== FILE: rails.dfy ===
/** Deck railing cost (rails.go): rails run along two lengths and one width
    (the house closes the fourth side), priced per linear foot at the rail
    material's rate plus the infill's rate. */
module Rails {
  import opened Basics
  import opened RateTable

  const InfillWithoutMaterial := "rail infill requires a rail material"

  /** Linear feet of the three open sides of the deck. */
  function ThreeSides(length: real, width: real): real {
    2.0 * length + width
  }

  /** `CalculateRailCost`: infill chosen without a rail material is an error;
      otherwise the three-side footage times the sum of the two rates, where a
      key missing from either table reads as rate 0. */
  function CalculateRailCost(length: real, width: real, railMaterial: string, railInfill: string, costs: Costs): (r: Priced)
    ensures r.Failed() <==> railMaterial == "" && railInfill != ""
    ensures r.Failed() ==> r == Fail(InfillWithoutMaterial)
    ensures !r.Failed() ==>
      r.cost == ThreeSides(length, width) * (Rate(costs.railMaterials, railMaterial) + Rate(costs.railInfills, railInfill))
  {
    var perimeter := (2.0 * length) + width;
    var railMatCost := Rate(costs.railMaterials, railMaterial);
    var railInfCost := Rate(costs.railInfills, railInfill);
    if railMaterial == "" && railInfill != "" then Fail(InfillWithoutMaterial)
    else Ok(perimeter * (railMatCost + railInfCost))
  }

  /** Keys that neither table knows are priced at 0 rather than rejected. */
  lemma RailUnknownKeysCostNothing(length: real, width: real, railMaterial: string, railInfill: string, costs: Costs)
    requires railMaterial != ""
    requires railMaterial !in costs.railMaterials && railInfill !in costs.railInfills
    ensures CalculateRailCost(length, width, railMaterial, railInfill, costs) == Ok(0.0)
  {
  }

  /** No rail material and no infill: no rails, no error (as long as the
      tables do not price the empty key). */
  lemma RailNothingChosen(length: real, width: real, costs: Costs)
    requires "" !in costs.railMaterials && "" !in costs.railInfills
    ensures CalculateRailCost(length, width, "", "", costs) == Ok(0.0)
  {
  }

  /** Non-negative dimensions and rates give a non-negative rail cost. */
  lemma {:induction false} RailCostNonNegative(length: real, width: real, railMaterial: string, railInfill: string, costs: Costs)
    requires length >= 0.0 && width >= 0.0
    requires NonNegativeRates(costs.railMaterials) && NonNegativeRates(costs.railInfills)
    ensures CalculateRailCost(length, width, railMaterial, railInfill, costs).cost >= 0.0
  {
    RateNonNegative(costs.railMaterials, railMaterial);
    RateNonNegative(costs.railInfills, railInfill);
    var p := ThreeSides(length, width);
    assert p >= 0.0;
    var rm, ri := Rate(costs.railMaterials, railMaterial), Rate(costs.railInfills, railInfill);
    assert p * (rm + ri) >= 0.0;
  }
}

=== FILE: stairs.dfy ===
/** Stair cost (stairs.go): one step per 7 inches of rise (height * 1.6,
    rounded up), a 3 ft minimum width, and a 1.5 framing factor on the deck
    material rate. */
module Stairs {
  import opened Basics

  const TooNarrow := "stair width must be at least 3 ft if specified"

  /** Number of steps for a deck `height` feet high: the least whole number
      of steps not below `height * 1.6`. */
  function StepCount(height: real): (steps: int)
    ensures height * 1.6 <= steps as real < height * 1.6 + 1.0
  {
    Ceil(height * 1.6)
  }

  /** `CalculateStairCost`: a width strictly between 0 and 3 ft is refused, a
      width of 0 means no stairs; any other width (including a negative one,
      which the handler never passes) is priced as rate * steps * width * 1.5. */
  function CalculateStairCost(height: real, stairWidth: real, materialCost: real): (r: Priced)
    ensures 0.0 < stairWidth < 3.0 ==> r == Fail(TooNarrow)
    ensures stairWidth == 0.0 ==> r == Ok(0.0)
    ensures (stairWidth >= 3.0 || stairWidth < 0.0) ==>
      r == Ok(materialCost * StepCount(height) as real * stairWidth * 1.5)
  {
    var steps := Ceil(height * 1.6) as real;
    if stairWidth > 0.0 && stairWidth < 3.0 then Fail(TooNarrow)
    else if stairWidth == 0.0 then Ok(0.0)
    else
      var stairAdjustCost := 1.5;
      Ok(materialCost * steps * stairWidth * stairAdjustCost)
  }

  /** The only error is the too-narrow width. */
  lemma StairErrorIff(height: real, stairWidth: real, materialCost: real)
    ensures CalculateStairCost(height, stairWidth, materialCost).Failed() <==> 0.0 < stairWidth < 3.0
  {
  }

  /** Width boundary: 3 ft is buildable, 2.999 ft is not. */
  lemma StairWidthBoundary(height: real, materialCost: real)
    ensures !CalculateStairCost(height, 3.0, materialCost).Failed()
    ensures CalculateStairCost(height, 2.999, materialCost) == Fail(TooNarrow)
  {
  }

  /** For buildable widths, non-negative height and rate, the stair cost is
      non-negative and grows with the width. */
  lemma {:induction false} StairCostMonotoneInWidth(height: real, w1: real, w2: real, materialCost: real)
    requires height >= 0.0 && materialCost >= 0.0
    requires 3.0 <= w1 <= w2
    ensures 0.0 <= CalculateStairCost(height, w1, materialCost).cost
    ensures CalculateStairCost(height, w1, materialCost).cost <= CalculateStairCost(height, w2, materialCost).cost
  {
    var steps := StepCount(height) as real;
    assert steps >= 0.0;
    var k := materialCost * steps;
    assert k >= 0.0;
    assert k * w1 * 1.5 >= 0.0;
    assert k * w2 * 1.5 - k * w1 * 1.5 == k * (w2 - w1) * 1.5;
    assert k * (w2 - w1) >= 0.0;
  }

  /** A 3 ft rise takes 5 steps; 4 ft wide stairs at 40 cost 1200. */
  lemma StairScenario()
    ensures StepCount(3.0) == 5
    ensures CalculateStairCost(3.0, 4.0, 40.0) == Ok(1200.0)
  {
  }
}

=== FILE: tax.dfy ===
/** Sales tax (tax.go): a flat 8.7% of the subtotal. */
module Tax {

  const TaxRate: real := 0.087

  /** `CalculateSalesTax`: the subtotal plus its tax is 1.087 times the
      subtotal, and for a non-negative subtotal the tax lies between 0 and the
      subtotal. */
  function CalculateSalesTax(subtotal: real): (t: real)
    ensures subtotal + t == subtotal * 1.087
    ensures subtotal >= 0.0 ==> 0.0 <= t <= subtotal
    ensures subtotal == 0.0 <==> t == 0.0
  {
    subtotal * TaxRate
  }

  /** A 9600 subtotal carries 835.20 tax, 10435.20 in all. */
  lemma TaxScenario()
    ensures CalculateSalesTax(9600.0) == 835.2
    ensures 9600.0 + CalculateSalesTax(9600.0) == 10435.2
  {
  }
}

=== FILE: text.dfy ===
/** The few Go `strings` operations the core relies on, over `seq<char>`:
    `Split`/`Join` with a one-character separator, `Trim` with a one-character
    cutset, `TrimSpace`, `HasPrefix` and (ASCII) `ToLower`. */
module Text {

  /** `strings.Split(s, string(sep))`: the maximal separator-free pieces of
      `s`, in order. The empty string splits into one empty piece. */
  function Split(s: string, sep: char): (parts: seq<string>)
    ensures |parts| >= 1
    ensures forall i :: 0 <= i < |parts| ==> sep !in parts[i]
    decreases |s|
  {
    if s == [] then [[]]
    else
      var rest := Split(s[1..], sep);
      if s[0] == sep then [[]] + rest
      else [[s[0]] + rest[0]] + rest[1..]
  }

  /** `strings.Join(parts, string(sep))`. */
  function Join(parts: seq<string>, sep: char): string
    decreases |parts|
  {
    if parts == [] then []
    else if |parts| == 1 then parts[0]
    else parts[0] + [sep] + Join(parts[1..], sep)
  }

  /** Joining the pieces of a split gives back the string. */
  lemma {:induction false} JoinSplit(s: string, sep: char)
    ensures Join(Split(s, sep), sep) == s
    decreases |s|
  {
    if s != [] {
      var rest := Split(s[1..], sep);
      JoinSplit(s[1..], sep);
      if s[0] == sep {
        assert Split(s, sep) == [[]] + rest;
        assert [s[0]] + s[1..] == s;
      } else {
        var parts := Split(s, sep);
        assert parts == [[s[0]] + rest[0]] + rest[1..];
        if |rest| == 1 {
          assert Join(rest, sep) == rest[0];
          assert [s[0]] + s[1..] == s;
          assert parts == [s];
        } else {
          assert rest == [rest[0]] + rest[1..];
          assert Join(rest, sep) == rest[0] + [sep] + Join(rest[1..], sep);
          assert parts[1..] == rest[1..];
          assert Join(parts, sep) == [s[0]] + rest[0] + [sep] + Join(rest[1..], sep);
        }
      }
    }
  }

  /** Splitting at a separator occurrence splits the two sides independently. */
  lemma {:induction false} SplitAtSeparator(a: string, b: string, sep: char)
    ensures Split(a + [sep] + b, sep) == Split(a, sep) + Split(b, sep)
    decreases |a|
  {
    var s := a + [sep] + b;
    if a == [] {
      assert s == [sep] + b;
      assert s[1..] == b;
      assert Split(s, sep) == [[]] + Split(b, sep);
    } else {
      assert s[0] == a[0];
      assert s[1..] == a[1..] + [sep] + b;
      SplitAtSeparator(a[1..], b, sep);
      var left := Split(a[1..], sep);
      var rest := Split(s[1..], sep);
      assert rest == left + Split(b, sep);
      if a[0] == sep {
        assert Split(s, sep) == [[]] + rest;
        assert Split(a, sep) == [[]] + left;
      } else {
        assert Split(s, sep) == [[s[0]] + rest[0]] + rest[1..];
        assert Split(a, sep) == [[a[0]] + left[0]] + left[1..];
        ExtendFirstPiece(a[0], left, Split(b, sep));
      }
    }
  }

  /** Prefixing a character to the first piece commutes with appending more
      pieces. */
  lemma ExtendFirstPiece(c: char, left: seq<string>, right: seq<string>)
    requires |left| >= 1
    ensures [[c] + (left + right)[0]] + (left + right)[1..] == [[c] + left[0]] + left[1..] + right
  {
    assert (left + right)[0] == left[0];
    assert (left + right)[1..] == left[1..] + right;
  }

  /** A string without the separator is a single piece. */
  lemma {:induction false} SplitNoSeparator(s: string, sep: char)
    requires sep !in s
    ensures Split(s, sep) == [s]
    decreases |s|
  {
    if s != [] {
      assert sep !in s[1..];
      SplitNoSeparator(s[1..], sep);
      assert [s[0]] + s[1..] == s;
    }
  }

  /** A string holding the separator splits into at least two pieces. */
  lemma {:induction false} SplitWithSeparator(s: string, sep: char)
    requires sep in s
    ensures |Split(s, sep)| >= 2
    decreases |s|
  {
    if s[0] != sep {
      assert sep in s[1..];
      SplitWithSeparator(s[1..], sep);
    }
  }

  /** Splitting a join of separator-free pieces gives back the pieces. */
  lemma {:induction false} SplitJoin(parts: seq<string>, sep: char)
    requires |parts| >= 1
    requires forall i :: 0 <= i < |parts| ==> sep !in parts[i]
    ensures Split(Join(parts, sep), sep) == parts
    decreases |parts|
  {
    if |parts| == 1 {
      SplitNoSeparator(parts[0], sep);
    } else {
      SplitJoin(parts[1..], sep);
      SplitAtSeparator(parts[0], Join(parts[1..], sep), sep);
      SplitNoSeparator(parts[0], sep);
      assert [parts[0]] + parts[1..] == parts;
    }
  }

  /** `strings.TrimLeft` with a one-character cutset. */
  function TrimLeft(s: string, c: char): (r: string)
    ensures |r| <= |s| && r == s[|s| - |r|..]
    ensures r == [] || r[0] != c
    ensures forall i :: 0 <= i < |s| - |r| ==> s[i] == c
    decreases |s|
  {
    if s != [] && s[0] == c then TrimLeft(s[1..], c) else s
  }

  /** `strings.TrimRight` with a one-character cutset. */
  function TrimRight(s: string, c: char): (r: string)
    ensures |r| <= |s| && r == s[..|r|]
    ensures r == [] || r[|r| - 1] != c
    ensures forall i :: |r| <= i < |s| ==> s[i] == c
    decreases |s|
  {
    if s != [] && s[|s| - 1] == c then TrimRight(s[..|s| - 1], c) else s
  }

  /** `strings.Trim(s, string(c))`: every leading and trailing `c` removed. */
  function Trim(s: string, c: char): string {
    TrimRight(TrimLeft(s, c), c)
  }

  /** One leading cutset character in front of a string that neither starts
      nor ends with it is exactly what `Trim` removes. */
  lemma TrimOneLeading(x: string, c: char)
    requires x != [] && x[0] != c && x[|x| - 1] != c
    ensures Trim([c] + x, c) == x
  {
    assert ([c] + x)[1..] == x;
  }

  /** White space as Go's `unicode.IsSpace` defines it. */
  predicate IsSpace(ch: char) {
    ch == ' ' || ch == '\t' || ch == '\n' || ch == '\U{000B}' || ch == '\U{000C}' || ch == '\r'
    || ch == '\U{0085}' || ch == '\U{00A0}' || ch == '\U{1680}'
    || ('\U{2000}' <= ch <= '\U{200A}')
    || ch == '\U{2028}' || ch == '\U{2029}' || ch == '\U{202F}' || ch == '\U{205F}' || ch == '\U{3000}'
  }

  /** `r` is `s[i..j]` and everything outside that window is white space. */
  predicate DropsOnlySpace(s: string, r: string, i: int, j: int) {
    && 0 <= i <= j <= |s| && r == s[i..j]
    && (forall k :: 0 <= k < i ==> IsSpace(s[k]))
    && (forall k :: j <= k < |s| ==> IsSpace(s[k]))
  }

  /** `strings.TrimSpace`: leading and trailing white space removed. */
  function TrimSpace(s: string): (r: string)
    ensures r == [] || (!IsSpace(r[0]) && !IsSpace(r[|r| - 1]))
    ensures exists i, j :: DropsOnlySpace(s, r, i, j)
    decreases |s|
  {
    if s == [] then
      assert DropsOnlySpace(s, s, 0, 0);
      s
    else if IsSpace(s[0]) then
      var r := TrimSpace(s[1..]);
      ghost var i, j :| DropsOnlySpace(s[1..], r, i, j);
      DropLeadingSpace(s, r, i, j);
      r
    else if IsSpace(s[|s| - 1]) then
      var r := TrimSpace(s[..|s| - 1]);
      ghost var i, j :| DropsOnlySpace(s[..|s| - 1], r, i, j);
      DropTrailingSpace(s, r, i, j);
      r
    else
      assert DropsOnlySpace(s, s, 0, |s|);
      s
  }

  lemma DropLeadingSpace(s: string, r: string, i: int, j: int)
    requires s != [] && IsSpace(s[0]) && DropsOnlySpace(s[1..], r, i, j)
    ensures DropsOnlySpace(s, r, i + 1, j + 1)
  {
    assert s[1..][i..j] == s[i + 1..j + 1];
    forall k | 0 <= k < i + 1
      ensures IsSpace(s[k])
    {
      if k > 0 {
        assert s[k] == s[1..][k - 1];
      }
    }
    forall k | j + 1 <= k < |s|
      ensures IsSpace(s[k])
    {
      assert s[k] == s[1..][k - 1];
    }
  }

  lemma DropTrailingSpace(s: string, r: string, i: int, j: int)
    requires s != [] && IsSpace(s[|s| - 1]) && DropsOnlySpace(s[..|s| - 1], r, i, j)
    ensures DropsOnlySpace(s, r, i, j)
  {
    assert s[..|s| - 1][i..j] == s[i..j];
    forall k | 0 <= k < i
      ensures IsSpace(s[k])
    {
      assert s[k] == s[..|s| - 1][k];
    }
    forall k | j <= k < |s|
      ensures IsSpace(s[k])
    {
      if k < |s| - 1 {
        assert s[k] == s[..|s| - 1][k];
      }
    }
  }

  /** A string that neither starts nor ends with white space is left as it is. */
  lemma TrimSpaceUnchanged(s: string)
    requires s != [] && !IsSpace(s[0]) && !IsSpace(s[|s| - 1])
    ensures TrimSpace(s) == s
  {
  }

  /** A string of white space only trims to the empty string, and nothing else does. */
  lemma {:induction false} TrimSpaceEmpty(s: string)
    ensures TrimSpace(s) == [] <==> forall i :: 0 <= i < |s| ==> IsSpace(s[i])
    decreases |s|
  {
    if s != [] {
      if IsSpace(s[0]) {
        TrimSpaceEmpty(s[1..]);
        assert forall i :: 1 <= i < |s| ==> s[i] == s[1..][i - 1];
      } else if IsSpace(s[|s| - 1]) {
        TrimSpaceEmpty(s[..|s| - 1]);
        assert forall i :: 0 <= i < |s| - 1 ==> s[i] == s[..|s| - 1][i];
      }
    }
  }

  /** `strings.HasPrefix`. */
  predicate HasPrefix(s: string, prefix: string) {
    |prefix| <= |s| && s[..|prefix|] == prefix
  }

  /** The two non-ASCII letters whose lower case is ASCII: the Kelvin sign
      U+212A (lower case 'k') and the dotted capital I U+0130 (lower case 'i'). */
  const KelvinSign: char := '\U{212A}'
  const DottedCapitalI: char := '\U{0130}'

  /** A letter `unicode.ToLower` turns into an ASCII letter other than itself. */
  predicate IsUpper(ch: char) {
    'A' <= ch <= 'Z' || ch == KelvinSign || ch == DottedCapitalI
  }

  /** `unicode.ToLower` as far as ASCII is concerned: every letter whose lower
      case is ASCII is lowered, every other character is kept. */
  function LowerChar(ch: char): (r: char)
    ensures 'A' <= ch <= 'Z' ==> r != ch && r as int - ch as int == 32
    ensures ch == KelvinSign ==> r == 'k'
    ensures ch == DottedCapitalI ==> r == 'i'
    ensures !IsUpper(ch) ==> r == ch
    ensures !IsUpper(r)
  {
    if 'A' <= ch <= 'Z' then (ch as int + 32) as char
    else if ch == KelvinSign then 'k'
    else if ch == DottedCapitalI then 'i'
    else ch
  }

  /** `strings.ToLower`, with every character lowered by `LowerChar` and
      nothing moved. */
  function ToLower(s: string): (r: string)
    ensures |r| == |s|
    ensures forall i :: 0 <= i < |s| ==> r[i] == LowerChar(s[i])
  {
    seq(|s|, i requires 0 <= i < |s| => LowerChar(s[i]))
  }

  /** Lowering twice is lowering once. */
  lemma ToLowerIdempotent(s: string)
    ensures ToLower(ToLower(s)) == ToLower(s)
  {
  }

  /** No letter that lowers to ASCII occurs in `s`. */
  predicate NoUpper(s: string) {
    forall i :: 0 <= i < |s| ==> !IsUpper(s[i])
  }

  /** A string without letters that lower to ASCII is its own lower case,
      and a lowered string has none. */
  lemma ToLowerOfLower(s: string)
    ensures NoUpper(s) ==> ToLower(s) == s
    ensures NoUpper(ToLower(s))
  {
  }

  lemma NoUpperAppend(a: string, b: string)
    requires NoUpper(a) && NoUpper(b)
    ensures NoUpper(a + b)
  {
    assert forall i :: |a| <= i < |a + b| ==> (a + b)[i] == b[i - |a|];
  }
}

=== FILE: ui_format.dfy ===
/** Presentation helpers (ui_format.go): thousands separators for money
    amounts and the display names of deck materials. */
module UiFormat {
  import opened Text

  /** Reference grouping: split off the last three digits, group the rest,
      join with a comma. Strings of at most three characters are left alone. */
  function Thousands(d: string): string
    decreases |d|
  {
    if |d| <= 3 then d else Thousands(d[..|d| - 3]) + [','] + d[|d| - 3..]
  }

  /** What the formatting loop emits for index `i`: a comma when `i > 0` and
      a multiple of three characters remain, then the character itself. */
  function Emitted(d: string, i: nat): string
    requires i < |d|
  {
    (if i > 0 && (|d| - i) % 3 == 0 then [','] else []) + [d[i]]
  }

  /** What the loop has built after its first `k` iterations. */
  function LoopOutput(d: string, k: nat): string
    requires k <= |d|
    decreases k
  {
    if k == 0 then [] else LoopOutput(d, k - 1) + Emitted(d, k - 1)
  }

  /** `d` with every comma removed. */
  function StripCommas(s: string): (r: string)
    ensures ',' !in r
    ensures |r| <= |s|
    decreases |s|
  {
    if s == [] then []
    else (if s[0] == ',' then [] else [s[0]]) + StripCommas(s[1..])
  }

  lemma {:induction false} StripCommasAppend(a: string, b: string)
    ensures StripCommas(a + b) == StripCommas(a) + StripCommas(b)
    decreases |a|
  {
    if a == [] {
      assert a + b == b;
    } else {
      assert (a + b)[0] == a[0];
      assert (a + b)[1..] == a[1..] + b;
      StripCommasAppend(a[1..], b);
    }
  }

  lemma {:induction false} StripCommasNone(s: string)
    requires ',' !in s
    ensures StripCommas(s) == s
    decreases |s|
  {
    if s != [] {
      StripCommasNone(s[1..]);
      assert [s[0]] + s[1..] == s;
    }
  }

  /** For a string of at most three characters the loop adds no comma. */
  lemma {:induction false} ShortLoopOutput(d: string, k: nat)
    requires k <= |d| <= 3
    ensures LoopOutput(d, k) == d[..k]
    decreases k
  {
    if k > 0 {
      ShortLoopOutput(d, k - 1);
      assert Emitted(d, k - 1) == [d[k - 1]];
      assert d[..k] == d[..k - 1] + [d[k - 1]];
    }
  }

  /** Dropping the last three characters does not change the comma decisions
      of the earlier iterations. */
  lemma {:induction false} LoopOutputOfPrefix(d: string, k: nat)
    requires |d| > 3 && k <= |d| - 3
    ensures LoopOutput(d, k) == LoopOutput(d[..|d| - 3], k)
    decreases k
  {
    if k > 0 {
      LoopOutputOfPrefix(d, k - 1);
      var p := d[..|d| - 3];
      assert (|d| - (k - 1)) % 3 == (|p| - (k - 1)) % 3;
      assert Emitted(d, k - 1) == Emitted(p, k - 1);
    }
  }

  /** The last three iterations over a string longer than three: a comma,
      then the last three characters. */
  lemma LoopOutputLastThree(d: string, n: nat)
    requires n == |d| > 3
    ensures LoopOutput(d, n) == LoopOutput(d, n - 3) + [','] + d[n - 3..]
  {
    var a := LoopOutput(d, n - 3);
    var x, y, z := d[n - 3], d[n - 2], d[n - 1];
    assert Emitted(d, n - 3) == [',', x];
    var b := LoopOutput(d, n - 2);
    assert b == a + [',', x];
    assert Emitted(d, n - 2) == [y];
    var c := LoopOutput(d, n - 1);
    assert c == b + [y];
    assert Emitted(d, n - 1) == [z];
    assert LoopOutput(d, n) == c + [z];
    assert d[n - 3..] == [x, y, z];
    assert c + [z] == a + [','] + [x, y, z];
  }

  /** The left-to-right loop agrees with the right-to-left reference. */
  lemma LoopIsThousands(d: string)
    ensures LoopOutput(d, |d|) == Thousands(d)
  {
    LoopIsThousandsAt(d, |d|);
  }

  lemma {:induction false} LoopIsThousandsAt(d: string, n: nat)
    requires n == |d|
    ensures LoopOutput(d, n) == Thousands(d)
    decreases n
  {
    if n <= 3 {
      ShortLoopOutput(d, n);
      assert d[..n] == d;
    } else {
      var p := d[..n - 3];
      LoopIsThousandsAt(p, n - 3);
      LoopOutputOfPrefix(d, n - 3);
      LoopOutputLastThree(d, n);
      ThousandsLastThree(d, n);
    }
  }

  /** The reference grouping's own recursion step. */
  lemma ThousandsLastThree(d: string, n: nat)
    requires n == |d| > 3
    ensures Thousands(d) == Thousands(d[..n - 3]) + [','] + d[n - 3..]
  {
  }

  /** The grouping loop of `formatCost`. */
  method GroupDigits(intPart: string) returns (withCommas: string)
    ensures withCommas == Thousands(intPart)
  {
    withCommas := "";
    var i := 0;
    while i < |intPart|
      invariant 0 <= i <= |intPart|
      invariant withCommas == LoopOutput(intPart, i)
    {
      if i > 0 && (|intPart| - i) % 3 == 0 {
        withCommas := withCommas + ",";
      }
      withCommas := withCommas + [intPart[i]];
      i := i + 1;
    }
    LoopIsThousands(intPart);
  }

  /** Deleting the commas from a grouped comma-free string gives it back. */
  lemma ThousandsKeepsDigits(d: string)
    requires ',' !in d
    ensures StripCommas(Thousands(d)) == d
  {
    ThousandsKeepsDigitsAt(d, |d|);
  }

  lemma {:induction false} ThousandsKeepsDigitsAt(d: string, n: nat)
    requires ',' !in d && n == |d|
    ensures StripCommas(Thousands(d)) == d
    decreases n
  {
    if n <= 3 {
      StripCommasNone(d);
    } else {
      var p, tail := d[..n - 3], d[n - 3..];
      assert ',' !in p && ',' !in tail;
      ThousandsKeepsDigitsAt(p, n - 3);
      ThousandsLastThree(d, n);
      StripAroundComma(Thousands(p), tail);
      StripCommasNone(tail);
      assert p + tail == d;
    }
  }

  /** Removing commas across a single comma joins the two sides' results. */
  lemma StripAroundComma(a: string, b: string)
    ensures StripCommas(a + [','] + b) == StripCommas(a) + StripCommas(b)
  {
    var comma: string := [','];
    assert comma[1..] == [];
    assert StripCommas(comma) == [];
    StripCommasAppend(a, comma);
    StripCommasAppend(a + comma, b);
  }

  /** The groups of a grouped comma-free, non-empty string: the first has one
      to three characters, every later one exactly three, and the grouped
      string does not start with a comma. */
  lemma {:induction false} ThousandsGroups(d: string)
    requires ',' !in d && |d| >= 1
    ensures var g := Split(Thousands(d), ',');
      && 1 <= |g[0]| <= 3
      && (forall k :: 1 <= k < |g| ==> |g[k]| == 3)
      && |g| == (|d| + 2) / 3
    ensures Thousands(d)[0] == d[0]
    decreases |d|
  {
    if |d| <= 3 {
      SplitNoSeparator(d, ',');
    } else {
      var p, tail := d[..|d| - 3], d[|d| - 3..];
      ThousandsGroups(p);
      SplitAtSeparator(Thousands(p), tail, ',');
      SplitNoSeparator(tail, ',');
    }
  }

  /** `formatCost` applied to the text `strconv.FormatFloat(cost, 'f', 2, 64)`
      produces (which always holds a decimal point): "$", the grouped integer
      part, ".", the decimal part unchanged. */
  method FormatCost(fixed: string) returns (s: string)
    requires '.' in fixed
    ensures |Split(fixed, '.')| >= 2
    ensures var parts := Split(fixed, '.');
      s == "$" + Thousands(parts[0]) + "." + parts[1]
  {
    SplitWithSeparator(fixed, '.');
    var parts := Split(fixed, '.');
    var intPart := parts[0];
    var decPart := parts[1];
    var withCommas := GroupDigits(intPart);
    s := "$" + withCommas + "." + decPart;
  }

  /** `FormatFloat` output "digits.digits" splits into its two parts. */
  lemma FixedPointParts(intPart: string, decPart: string)
    requires '.' !in intPart && '.' !in decPart
    ensures Split(intPart + "." + decPart, '.') == [intPart, decPart]
  {
    SplitAtSeparator(intPart, decPart, '.');
    SplitNoSeparator(intPart, '.');
    SplitNoSeparator(decPart, '.');
  }

  /** For the shape `FormatFloat` produces, "digits.digits", the output starts
      with "$", ends with "." and the decimal part, and between them holds the
      integer digits, in order, once the commas are removed. */
  lemma FormatCostShape(intPart: string, decPart: string)
    requires ',' !in intPart
    ensures var s := "$" + Thousands(intPart) + "." + decPart;
      && s[0] == '$'
      && s[|s| - |decPart| - 1..] == "." + decPart
      && StripCommas(s[1..|s| - |decPart| - 1]) == intPart
  {
    var t, c := Thousands(intPart), "." + decPart;
    ThousandsKeepsDigits(intPart);
    Regrouped("$", t, decPart);
    MiddleOfThree("$", t, c);
  }

  lemma Regrouped(a: string, b: string, d: string)
    ensures a + b + "." + d == a + b + ("." + d)
  {
  }

  /** Slicing a three-piece concatenation back into its pieces. */
  lemma MiddleOfThree(a: string, b: string, c: string)
    ensures var s := a + b + c;
      && s[..|a|] == a
      && s[|a|..|s| - |c|] == b
      && s[|s| - |c|..] == c
  {
  }

  /** Four or more integer digits get separators: 13680 is shown as 13,680. */
  lemma ThousandsExample()
    ensures Thousands("13680") == "13,680"
    ensures Thousands("680") == "680"
  {
    assert "13680"[..2] == "13";
    assert "13680"[2..] == "680";
  }

  /** As written, the loop groups the minus sign of a negative amount like a
      digit: an amount of -123 is shown as "$-,123.00". */
  lemma NegativeAmountGetsStrayComma()
    ensures Split("-123.00", '.') == ["-123", "00"]
    ensures Thousands("-123") == "-,123"
  {
    FixedPointParts("-123", "00");
    assert "-123" + "." + "00" == "-123.00";
    assert "-123"[..1] == "-";
    assert "-123"[1..] == "123";
  }

  /** `formatCost` with the sign kept out of the grouping: a leading '-' is
      emitted before the grouped magnitude. */
  function FormatCostSigned(intPart: string, decPart: string): string {
    if intPart != [] && intPart[0] == '-' then "$-" + Thousands(intPart[1..]) + "." + decPart
    else "$" + Thousands(intPart) + "." + decPart
  }

  /** The corrected formatting keeps every character of the amount in order
      once commas are removed, never places a comma right after the sign, and
      agrees with `formatCost` on every amount without a sign. */
  lemma FormatCostSignedNoStrayComma(intPart: string, decPart: string)
    requires ',' !in intPart
    ensures var s := FormatCostSigned(intPart, decPart);
      && s[0] == '$'
      && StripCommas(s) == StripCommas("$" + intPart + "." + decPart)
      && (|intPart| >= 2 && intPart[0] == '-' ==> s[1] == '-' && s[2] == intPart[1] != ',')
      && (intPart == [] || intPart[0] != '-' ==> s == "$" + Thousands(intPart) + "." + decPart)
  {
    if intPart != [] && intPart[0] == '-' {
      var rest := intPart[1..];
      assert ',' !in rest;
      StripGrouped("$-", rest, ".", decPart);
      assert "$" + intPart == "$-" + rest;
      if |intPart| >= 2 {
        ThousandsGroups(rest);
      }
    } else {
      StripGrouped("$", intPart, ".", decPart);
    }
  }

  /** Grouping between comma-free pieces is undone by removing the commas,
      exactly as for the ungrouped digits. */
  lemma StripGrouped(head: string, d: string, mid: string, tail: string)
    requires ',' !in head && ',' !in d && ',' !in mid
    ensures StripCommas(head + Thousands(d) + mid + tail) == head + d + mid + StripCommas(tail)
    ensures StripCommas(head + d + mid + tail) == head + d + mid + StripCommas(tail)
  {
    ThousandsKeepsDigits(d);
    StripCommasAppend(head + Thousands(d) + mid, tail);
    StripCommasAppend(head + Thousands(d), mid);
    StripCommasAppend(head, Thousands(d));
    StripCommasAppend(head + d + mid, tail);
    StripCommasAppend(head + d, mid);
    StripCommasAppend(head, d);
    StripCommasNone(head);
    StripCommasNone(d);
    StripCommasNone(mid);
  }

  /** Display name of a deck material key; unknown keys have no name. */
  function MaterialDisplayName(material: string): (name: string)
    ensures name != "" <==> material in {"outdoorWood", "cedar", "timberTechPrime", "timberTechProReserve", "timberTechProLegacy"}
  {
    match material
    case "outdoorWood" => "Outdoor Wood"
    case "cedar" => "Cedar"
    case "timberTechPrime" => "TimberTech Prime"
    case "timberTechProReserve" => "TimberTech Pro Reserve"
    case "timberTechProLegacy" => "TimberTech Pro Legacy"
    case _ => ""
  }

  /** Different known materials are shown under different names. */
  lemma MaterialNamesDistinct(a: string, b: string)
    requires MaterialDisplayName(a) != "" && a != b
    ensures MaterialDisplayName(a) != MaterialDisplayName(b)
  {
  }
}
